=== FILE: README.md ===
# pycommand's `CommandBase`, modelled in Dafny

pycommand builds command-line interfaces from a class declaration. A command
class names a usage synopsis, a description, an option table (`optionList`:
long name, short letter, argument placeholder, help text), extra usage text and
a map of subcommands. Constructing the class on an argument vector does four things:

- builds the `getopt` specifications from the table;
- renders the aligned usage text;
- scans the arguments with `getopt`;
- fills in one flag per declared option.

`run` dispatches to a subcommand, or raises `CommandExit` with a status. `run_and_exit` exits with status 1 on a scan error and otherwise with the status `run` returns; a `CommandExit` that `run` raises is not caught there and escapes it.

The model is a set of pure functions over immutable datatypes:

| file | module | models |
|---|---|---|
| results.dfy | `Results` | `Option` and `Result` |
| text.dfy | `Text` | prefixes, suffixes, blanks, left justification |
| getopt.dfy | `Getopt` | Python's `getopt.getopt`: the POSIX Utility Syntax Guidelines (IEEE Std 1003.1, XBD section 12.2) with GNU-style long options |
| option_table.dfy | `OptionTable` | `optionList`, its `OrderedDict` normalisation, and the `shortopts` string and `longopts` list built from it |
| usage.dfy | `Usage` | the padding, the option columns and lines, and the usage text |
| flags.dfy | `Flags` | the flag values, the assignment loop, and `dictobject` lookups |
| command_base.dfy | `CommandBase` | the constructor, `run`, `registerParentFlag`, `run_and_exit` |
| basic_example.dfy | `BasicExample` | the documented `BasicExampleCommand` and a small command with one subcommand |

A few behaviours of the code are worth knowing, because the model follows the code here:

- **Duplicate long names.** The table is folded into an `OrderedDict`. A long name declared twice keeps its first position and its last entry (`OptionTable.Dedup`).
- **Failed scans.** When the scan fails, the constructor returns before `flags` becomes a `dictobject`. On that path every flag is `None` when read by key. Reading a flag by attribute raises `AttributeError` from the plain dict; it does not return `None`.
- **Several matching entries.** The assignment loop compares every reported option with every entry. An option sets the flag of each entry it names; the last option to name an entry wins.
- **`run` with a known subcommand.** `run` returns the constructed subcommand object and does not run it.

## Model

| member | source | states |
|---|---|---|
| Flags.GetAttr | pycommand.py:40-46 | On a converted flag table, an attribute lookup succeeds exactly for declared names and returns the stored value, even `None`. Any other name raises `OptionError` with that name. On an unconverted table, every lookup raises `AttributeError`. |
| Flags.GetItem | pycommand.py:188-189 | An item lookup succeeds exactly for declared names and returns the stored value; otherwise it raises `KeyError`. |
| Flags.AttrAfterConversion | pycommand.py:40-46 | On a converted table, an attribute lookup returns what an item lookup returns, and turns its `KeyError` into `OptionError` with the name. |
| Flags.InitialFlags | pycommand.py:132 | Every declared long name, and nothing else, starts as `None`. |
| Flags.Matches | pycommand.py:173-186 | An entry is named by its own long spelling, and by its own short spelling when that is one letter other than `-`. |
| Flags.Assigned | pycommand.py:176-186 | A matching option never sets a flag to `None`. It sets `True` on a boolean entry and the option's own value on an argument-taking one. |
| Flags.AssignOne | pycommand.py:172-186 | Comparing one option with the table only ever sets declared names and leaves every other key as it was. |
| Flags.AssignAll | pycommand.py:170-186 | Applying all reported options only ever sets declared names and leaves every other key as it was. |
| Flags.AssignAllAt | pycommand.py:170-186 | With unique names, after the loops each entry's flag is the value that the last option naming the entry gives it, or what it held before. |
| Flags.AssignOneAt | pycommand.py:172-186 | With unique names, one option sets an entry's flag exactly when it names that entry, and leaves it alone otherwise. |
| Flags.LastAssignedFits | pycommand.py:176-186 | A flag's final value is the default, or `True` for a boolean entry, or a string for an argument-taking entry. |
| Flags.LastAssignedAppend | pycommand.py:170 | The last assignment over two runs of options is the second run's last assignment, started from the first run's result. |
| OptionTable.EntryByName | pycommand.py:112 | Finds an entry of the given long name exactly when one is declared. |
| OptionTable.EntryByShort | pycommand.py:144-145 | Finds the first entry declaring the given letter, or reports that none does. |
| OptionTable.Lookup | pycommand.py:112 | The entry stored under a name exists exactly when the name is declared, carries that name, and is one of the declared entries. |
| OptionTable.LastNamed | pycommand.py:112 | The last declared entry of a name: no later entry has that name. |
| OptionTable.Insert | pycommand.py:112 | Setting a key of an ordered dict keeps keys unique, adds exactly that key, and grows the table only for a new key. |
| OptionTable.Dedup | pycommand.py:112 | The normalised table has unique names, the same name set, and no more entries. |
| OptionTable.DedupLastWins | pycommand.py:112 | The entry kept under each name is the last one declared under it. |
| OptionTable.DedupUnique | pycommand.py:112 | A table without duplicate names passes through `OrderedDict` unchanged. |
| OptionTable.InsertLookup | pycommand.py:112 | Setting a key changes the lookup of that key and no other. |
| OptionTable.ShortOptsEmpty | pycommand.py:144-145 | The built `shortopts` is empty exactly when no entry declares a short form. |
| OptionTable.ShortOptsLookup | pycommand.py:144-145 | When every short form is at most one letter and not `:`, `getopt` finds a letter in the built `shortopts` exactly when an entry declares it. It expects an argument exactly when the first such entry has a placeholder. |
| OptionTable.ShortOptsHead | pycommand.py:144-145 | The built `shortopts` never begins with `:`. |
| OptionTable.LongOpts | pycommand.py:130-131 | `longopts` has one element per entry, in order. Each element is the entry's name, followed by `=` exactly when the entry takes an argument. |
| OptionTable.LongOptsPlain | pycommand.py:130-131 | A name is in `longopts` exactly when an entry of that name takes no argument. |
| OptionTable.LongOptsWithArg | pycommand.py:130-131 | `name=` is in `longopts` exactly when an entry of that name takes an argument. |
| OptionTable.LongOptsLookup | pycommand.py:130-131 | When long names are non-empty, unique and free of `=` (short forms unrestricted), `getopt` recognises a long name exactly when an entry declares it, and expects an argument exactly when that entry has a placeholder. |
| Usage.PaddingFrom | pycommand.py:120-125 | The running maximum is at least its start value and every predicted width, and it is one of them. |
| Usage.Padding | pycommand.py:116-125 | The padding bounds every entry's predicted width and equals one of them. It is 0 for an empty table. |
| Usage.Column | pycommand.py:134-150 | For a short form of at most one letter, the rendered column is exactly as wide as the padding formula predicts. It always ends with `--` and the long spelling, and with a short form it starts with `-` and the letter. |
| Usage.OptionLine | pycommand.py:152-153 | A line starts with its column, is as wide as the wider of the column and the padding plus two, the help text and a newline, and ends with two blanks, the help text and a newline. |
| Usage.OptionLines | pycommand.py:128-153 | The option table is empty exactly for an empty table, and otherwise ends with a newline. |
| Usage.OptionLinesAppend | pycommand.py:129-153 | The option table of two tables one after the other is their two option tables one after the other. |
| Usage.OptionLinesSplit | pycommand.py:129-153 | The option table is the lines before entry `i`, entry `i`'s line, and the lines after it. |
| Usage.UsageListsOption | pycommand.py:155-161 | After the synopsis and description, the usage text holds the `Options:` header, every entry's line in declaration order, and then the extra text. |
| Usage.ColumnShapes | pycommand.py:134-150 | Each option column has one of four forms: `-x <arg>, --name=<arg>`, `-x, --name`, `--name=<arg>`, `--name`. |
| Usage.PaddingIsWidestColumn | pycommand.py:119-125 | The padding is the width of the widest rendered column. |
| Usage.PaddingIgnoresHelp | pycommand.py:119-125 | Help texts never change the padding. |
| Usage.LineLayout | pycommand.py:152-153 | A justified line is the column, then blanks up to two past the padding, then the help text and a newline. |
| Usage.OptionLineShape | pycommand.py:152-153 | An option line is its column, the blanks that fill it to two past the padding, the help text and a newline. |
| Usage.OptionLineAligned | pycommand.py:152-153 | Every line of a table starts with its column, and its help text starts at the same offset, two past the padding. |
| Usage.UsageText | pycommand.py:155-161 | The usage text starts with the synopsis, followed by the description section. With an empty table it is the synopsis, the description section and the extra section, and nothing else. With a non-empty table, the `Options:` header and the padded option lines come next, then the extra section. Its length is the sum of the sections. |
| Getopt.LongHasArg | pycommand.py:165 | A long name is recognised exactly when it or `name=` is in `longopts`. A recognised name takes an argument exactly when the bare name is not declared. |
| Getopt.DoShorts | pycommand.py:165 | A bundle of letters consumes at most the tokens after it: what remains is a suffix of them. |
| Getopt.Step | pycommand.py:165 | One option token consumes itself and possibly its argument: what remains is a suffix of the tokens after it, strictly shorter than the input. |
| Getopt.Parse | pycommand.py:165 | A scan never leaves more tokens than it was given, and it fails only on an input that starts with an option token. |
| Getopt.ShortHasArg | pycommand.py:165 | A letter is found exactly when it occurs in `shortopts` and is not `:`. A found letter takes an argument exactly when a `:` follows its first occurrence. |
| Getopt.DoLongs | pycommand.py:165 | A long option consumes at most the tokens after it: what remains is a suffix of them. |
| Getopt.ParseSound | pycommand.py:165 | A successful scan leaves a suffix of its input. It stops where the syntax guidelines say: at the end, at a non-option, or right after `--`. Every reported option is declared, and it carries the empty value when it takes no argument. |
| Getopt.ParseStops | pycommand.py:165 | A successful scan leaves a suffix and stopped at the end, at a non-option, or after `--`. |
| Getopt.ParseValid | pycommand.py:165 | Every option a successful scan reports is declared, and it carries the empty value when it takes no argument. |
| Getopt.RoundTrip | pycommand.py:165 | Options written back as tokens, followed by `--` and any positional arguments, scan back to the same options and arguments. |
| Getopt.RoundTripStops | pycommand.py:165 | Options written back as tokens, followed by positional arguments that start with a non-option, scan back to the same options and arguments. |
| Getopt.EncodeThenParse | pycommand.py:165 | Encoded options in front of a tail that yields no options scan back to exactly those options. |
| Getopt.BundledShorts | pycommand.py:165 | A boolean letter bundled with further letters (`-ab`) scans exactly like the letters given separately (`-a -b`), errors included. |
| Getopt.AttachedShortArgument | pycommand.py:165 | An argument attached to its letter (`-fvalue`) scans like `-f value`. |
| Getopt.AttachedLongArgument | pycommand.py:165 | `--name=value` scans like `--name value`. |
| Getopt.PositionalStops | pycommand.py:165 | Scanning stops at the first positional argument and returns it with everything after it. |
| Getopt.UnknownLongOption | pycommand.py:165-167 | Without prefix abbreviation, an undeclared long option fails the whole scan with "not recognized", whatever follows it. |
| Getopt.UnknownShortOption | pycommand.py:165-167 | An undeclared letter fails the whole scan with "not recognized", whatever follows it. |
| Getopt.MissingArgument | pycommand.py:165-167 | An argument-taking option as the last token fails with "requires argument". |
| CommandBase.Construct | pycommand.py:85-189 | A new command has empty parent flags and one flag per declared name. It records an error exactly when the scan fails. On error, `args` is empty, every flag is `None`, and `flags` stays a plain dict. Otherwise `flags` answers attribute lookups and `args` is a suffix of `argv`. |
| CommandBase.UsageOf | pycommand.py:155-161 | A command's usage starts with its class's synopsis, and is the synopsis alone for a class with no description, options or extra text. |
| CommandBase.UsageIgnoresArguments | pycommand.py:105-161 | The usage text is built before the scan: two commands of the same class have the same usage, whatever their arguments. |
| CommandBase.ScanShape | pycommand.py:165-173 | A successful scan reports options of at least a dash and a letter, so the loop's `opt[0][1]` always exists. |
| CommandBase.ConstructOnSuccess | pycommand.py:165-189 | After a successful scan, the command has no error. Its positional arguments are the scan's, and its flags are the loop's result on the reported options. |
| CommandBase.FlagsAreLastOccurrence | pycommand.py:170-186 | After a successful scan, each declared flag holds the value of the last option naming its entry, or `None`. The value is `True` only for a boolean entry and a string only for an argument-taking one. |
| CommandBase.ReportedOptionMatches | pycommand.py:170-186 | In a table of valid entries with unique names, letters shared between entries included, every option `getopt` reports names some entry: the loop drops none. |
| CommandBase.OptionsAreDeclared | pycommand.py:165-186 | In a table of valid entries with unique names, letters shared between entries included, every option a successful scan reports sets some declared flag. |
| BasicExample.TwoLetterShortDropped | pycommand.py:144-179 | A short form `ab` puts `a` and `b` into `shortopts`, but neither `-a` nor `-b` names the entry in the loop. |
| BasicExample.EqualsNameDropped | pycommand.py:130-182 | A long name `a=` puts `a=` into `longopts`, so `getopt` reads `--a` as taking an argument, and the reported `--a` does not name the entry. |
| CommandBase.ScanDecides | pycommand.py:163-189 | The command depends on its arguments only through what the scan makes of them. |
| CommandBase.ParsedFlags | pycommand.py:163-189 | Options written out, then `--` and positional arguments, construct a command with no error, those positional arguments, and the flags the options assign. |
| CommandBase.SameTargetsSameCommand | pycommand.py:170-186 | Two scans whose options name the same entries with the same values, and leave the same positional arguments, build the same command. |
| CommandBase.SpellingTargets | pycommand.py:170-186 | In a well-formed table, `-x` and `--name` of entry `i`, with the same value, name entry `i` and no other entry. |
| CommandBase.RespelledTargets | pycommand.py:170-186 | In a well-formed table, options where any short options are replaced by their entries' long spellings name the same entries with the same values. |
| CommandBase.SpellingsAgree | pycommand.py:170-186 | In a well-formed table, replacing any short options by their entries' long spellings (`-f x` by `--file x`) builds the same command. |
| CommandBase.Run | pycommand.py:191-200 | Exit 2 exactly when there are no positional arguments. Exit 1 exactly when the first one is not a known subcommand. Otherwise the outcome is that subcommand constructed on the arguments after its name. |
| CommandBase.DispatchAfterOptions | pycommand.py:191-196 | Options followed by a subcommand name hand the arguments after the name, untouched, to that subcommand. |
| CommandBase.DefaultCommand | pycommand.py:52-83 | A command of the base class itself has the usage `usage: command [options]` and keeps all its positional arguments. `run` exits with 2 without arguments and with 1 otherwise. |
| CommandBase.DefaultRejectsOptions | pycommand.py:163-168 | The base class declares no options: any long option is "not recognized", and `run_and_exit` exits with 1. |
| CommandBase.RegisterParentFlag | pycommand.py:202-210 | The name is set to the value, every other parent flag is kept, and nothing else about the command changes. |
| CommandBase.RegisterOverwrites | pycommand.py:209 | Registering a name twice keeps the later value. |
| CommandBase.RegisterCommutes | pycommand.py:209 | Registrations of different names commute. |
| CommandBase.RunAndExit | pycommand.py:213-220 | `sys.exit(1)` on a scan error, whatever `run` would do. Otherwise `sys.exit` with the status `run` returns, and the `CommandExit` escapes exactly when `run` raises one. |
| CommandBase.BaseRunEscapes | pycommand.py:191-220 | With the base class's `run`, no arguments or an unknown subcommand make `CommandExit(2)` or `CommandExit(1)` escape `run_and_exit`; `sys.exit` is not reached. |
| CommandBase.UnknownOptionExitsOne | pycommand.py:164-168 | Without prefix abbreviation, an undeclared long option is recorded as "not recognized", and `run_and_exit` exits with 1. |
| CommandBase.MissingArgumentExitsOne | pycommand.py:164-168 | A declared argument-taking option with nothing after it is recorded as "requires argument", and `run_and_exit` exits with 1. |
| BasicExample.BasicSpecs | tests.py:20-27 | The example table passes through unchanged and yields `shortopts` `hf:` and `longopts` `help`, `file=`, `version`. |
| BasicExample.BasicWellFormed | tests.py:20-27 | The example table is well formed. |
| BasicExample.BasicPadding | tests.py:37-39 | The example's padding is 32, the width of `-f <filename>, --file=<filename>`. |
| BasicExample.BasicUsage | tests.py:29-40 | The example's usage text is exactly the documented one, blank lines and alignment included. |
| BasicExample.HelpOnly | tests.py:29-44 | `['-h']` gives no error, no positional arguments, `help` `True`, and `file` and `version` `None`. |
| BasicExample.HelpOnlyAttributes | pycommand.py:40-46 | After `['-h']`, `flags.help` is `True` and `flags.verbose` raises `OptionError`. |
| BasicExample.FileAndVersion | tests.py:46-52 | `['--file', path, '--version']` gives no error, `help` `None`, `file` the path and `version` `True`. |
| BasicExample.UnknownFirst | tests.py:54-60 | An undeclared option first gives "option --doesnotexist not recognized" and leaves every flag `None`, whatever valid options follow. |
| BasicExample.FileSpellings | pycommand.py:170-186 | `-f v`, `--file v` and `-fv` build the same command, with `file` set to `v`. |
| BasicExample.NoCommand | pycommand.py:192-194 | A command with subcommands, run with no arguments, exits with 2. |
| BasicExample.UnknownCommand | pycommand.py:197-200 | An unknown subcommand name exits with 1. |
| BasicExample.KnownCommand | pycommand.py:195-196 | A known subcommand name after an option constructs that subcommand on the arguments after the name. |
| BasicExample.SubcommandHelp | pycommand.py:165-186 | Options before a positional word are read; the word and everything after it are positional. |

## Left out

- Long-option prefix abbreviation in `getopt` (`--fi` for `--file`): long names must be spelt out in full.
- The `GNU` and `POSIXLY_CORRECT` scanning modes of `getopt`: only `getopt.getopt`'s stop-at-first-positional mode is modelled, which is the one the constructor calls.
- Error message texts and the `GetoptError` message string: an error is its kind, whether it concerns a long option, and the option name.
- Printing in `run` and `run_and_exit`, and `sys.exit` itself: `run_and_exit` returns what it would pass to `sys.exit`, or the `CommandExit` status that escapes it.
- `CommandExit` as an exception, and its `__str__`.
- The default argument `argv=sys.argv[1:]` of the constructor and `sys.argv` in `run_and_exit`: the argument vector is always a parameter.
- Attributes `dict` itself defines (`flags.keys`, `flags.items`, ...), which take precedence over `__getattr__`: flag names are assumed not to clash with them.
- Python objects and class attributes shared between instances: commands are values, and a subclass is a `CommandDecl`.
- `usage` as a stored attribute: it depends only on the class, so it is the function `CommandBase.UsageOf`.
- The truncation of a status that `sys.exit` applies outside 0-255, and exit with a non-integer status.
- CommandBase.RunAndExit: the class's own `run` is a function parameter, because a subclass may override it. It returns a status or raises `CommandExit`; a `run` that returns a non-integer, as the base `run` does with a subcommand object, is not modelled.
- CommandBase.Run: when `run` returns the constructed subcommand, what the caller then does with that object is not modelled.
- Usage.Column: its width is proved only for short forms of at most one letter. A short form of several letters, such as `ab`, declares each letter to `getopt`. But the assignment loop (pycommand.py:175) compares one letter with the whole short form, so no reported option matches such an entry. The padding formula also counts 4 for any short form, whatever its length, so such a column is wider than predicted.
- Usage.PaddingIsWidestColumn: proved only for short forms of at most one letter, for the same reason.
- Usage.OptionLineAligned: proved only for short forms of at most one letter, for the same reason.
- OptionTable.ShortOpts: its meaning is stated by the lemmas OptionTable.ShortOptsLookup, OptionTable.ShortOptsEmpty and OptionTable.ShortOptsHead, not by a contract on the function itself.
- CommandBase.OptionsAreDeclared: proved only for entries with a non-empty long name without `=`, a short form of at most one letter other than `:` and `-`, and unique long names. Letters shared between entries are allowed. The property fails for a short form of several letters (BasicExample.TwoLetterShortDropped) and for a long name ending in `=` (BasicExample.EqualsNameDropped): `getopt` then reports an option that no entry matches.
- The generator script at the end of pycommand.py (pycommand.py:223 onwards), pycommand/util.py, pycommand/templates.py, doc/conf.py and setup.py: interactive I/O, file writing, string templates and packaging, none of it command-line parsing.

=== FILE: basic_example.dfy ===
/** The worked example of the test suite: a command with a boolean option that
    has a short form, an argument-taking option with a short form, and a boolean
    option with a long form only. */
module BasicExample {
  import opened Results
  import opened Text
  import opened Getopt
  import opened OptionTable
  import opened Usage
  import opened Flags
  import opened CommandBase

  const Help := OptionSpec("help", "h", "", "show this help information")
  const File := OptionSpec("file", "f", "<filename>", "use specified file")
  const Version := OptionSpec("version", "", "", "show version information")

  const Basic := CommandDecl("usage: basic-example [options]", "small description",
                             [Help, File, Version], "", map[])

  /** What the constructor hands the scanner for this declaration. */
  lemma BasicSpecs()
    ensures Options(Basic) == [Help, File, Version]
    ensures ShortOpts(Options(Basic)) == "hf:"
    ensures LongOpts(Options(Basic)) == ["help", "file=", "version"]
  {
    var t := Basic.options;
    assert UniqueNames(t);
    DedupUnique(t);
    BasicShortOpts(t);
    BasicLongOpts(t);
  }

  lemma BasicShortOpts(t: seq<OptionSpec>)
    requires t == [Help, File, Version]
    ensures ShortOpts(t) == "hf:"
  {
    assert t[1..] == [File, Version] && t[1..][1..] == [Version] && [Version][1..] == [];
    assert ShortOpts([Version]) == "";
    assert ShortOpts([File, Version]) == "f:" + "";
    assert ShortOpts(t) == "h" + "f:";
  }

  lemma BasicLongOpts(t: seq<OptionSpec>)
    requires t == [Help, File, Version]
    ensures LongOpts(t) == ["help", "file=", "version"]
  {
    assert t[1..] == [File, Version] && t[1..][1..] == [Version] && [Version][1..] == [];
    assert LongOpts([Version]) == ["version"];
    assert LongSpec(File) == "file=";
    assert LongOpts([File, Version]) == [LongSpec(File)] + LongOpts([Version]);
    assert LongOpts(t) == ["help"] + ["file=", "version"];
  }

  const S := "hf:"
  const L := ["help", "file=", "version"]

  lemma ShortLetters()
    ensures ShortHasArg('h', S) == Some(false)
    ensures ShortHasArg('f', S) == Some(true)
  {
    assert S[1..] == "f:";
  }

  lemma LongNames()
    ensures LongHasArg("help", L) == Some(false)
    ensures LongHasArg("file", L) == Some(true)
    ensures LongHasArg("version", L) == Some(false)
  {
    assert "file" + "=" == "file=";
  }

  /** The table is well formed and declares the three long names. */
  lemma BasicWellFormed()
    ensures WellFormed(Basic.options)
    ensures NameSet(Basic.options) == {"help", "file", "version"}
  {
    BasicNames();
  }

  lemma BasicNames()
    ensures NameSet(Basic.options) == {"help", "file", "version"}
  {
    assert Basic.options[0].name == "help";
    assert Basic.options[1].name == "file";
    assert Basic.options[2].name == "version";
  }

  /** Each flag of a successful scan, by position in the table. */
  lemma BasicFlag(argv: seq<string>, opts: seq<Opt>, rest: seq<string>, i: nat)
    requires i < 3
    requires Parse(argv, S, L) == Success((opts, rest))
    ensures WellShaped(opts)
    ensures var c := Construct(Basic, argv);
      && c.error == None && c.args == rest && c.flags.byAttribute
      && GetItem(c.flags, Basic.options[i].name) == Success(LastAssigned(Basic.options[i], opts, Absent))
  {
    BasicSpecs();
    ConstructOnSuccess(Basic, argv, opts, rest);
    FlagsAreLastOccurrence(Basic, argv, i);
  }

  lemma BasicPadding()
    ensures Padding(Basic.options) == 32
  {
    var t := Basic.options;
    assert t[1..] == [File, Version] && t[1..][1..] == [Version] && [Version][1..] == [];
    assert PredictedWidth(Help) == 10 && PredictedWidth(File) == 32 && PredictedWidth(Version) == 9;
    assert PaddingFrom([Version], 32) == 32;
    assert PaddingFrom([File, Version], 10) == 32;
  }

  /** Each line: the column, blanks up to column 34, the help text. */
  lemma HelpLine()
    ensures OptionLine(Help, 32) == "-h, --help" + Spaces(24) + "show this help information\n"
  {
    assert Column(Help) == "-h, --help";
    OptionLineShape(Help, 32);
  }

  lemma FileParts()
    ensures ShortPart(File) == "f <filename>"
    ensures LongPart(File) == "file=<filename>"
  {
    assert "f" + " " == "f " && "f " + "<filename>" == "f <filename>";
    assert "file" + "=" == "file=" && "file=" + "<filename>" == "file=<filename>";
  }

  lemma FileColumn()
    ensures Column(File) == "-f <filename>, --file=<filename>"
  {
    FileParts();
    assert "-" + "f <filename>" == "-f <filename>";
    assert "-f <filename>" + ", --" == "-f <filename>, --";
    assert "-f <filename>, --" + "file=<filename>" == "-f <filename>, --file=<filename>";
  }

  lemma FileLine()
    ensures OptionLine(File, 32) == "-f <filename>, --file=<filename>" + Spaces(2) + "use specified file\n"
  {
    FileColumn();
    OptionLineShape(File, 32);
  }

  lemma VersionLine()
    ensures OptionLine(Version, 32) == "--version" + Spaces(25) + "show version information\n"
  {
    assert Column(Version) == "--version";
    OptionLineShape(Version, 32);
  }

  lemma BasicDescription()
    ensures DescriptionPart(Basic.description) == "\n\nsmall description"
  {
    assert "\n\n" + "small description" == "\n\nsmall description";
  }

  /** The usage text: the synopsis, the description, and an option table whose
      help texts start two blanks after the widest column (32 characters). */
  lemma BasicUsage(argv: seq<string>)
    ensures UsageOf(Construct(Basic, argv)) ==
      "usage: basic-example [options]"
      + "\n\nsmall description"
      + "\n\nOptions:\n"
      + ("-h, --help" + Spaces(24) + "show this help information\n")
      + ("-f <filename>, --file=<filename>" + Spaces(2) + "use specified file\n")
      + ("--version" + Spaces(25) + "show version information\n")
  {
    BasicUsageOf(argv);
    BasicUsageText();
    HelpLine();
    FileLine();
    VersionLine();
  }

  /** The usage attribute is the usage text of the example's own table. */
  lemma BasicUsageOf(argv: seq<string>)
    ensures UsageOf(Construct(Basic, argv)) == UsageText(Basic.usagestr, Basic.description, Basic.options, Basic.extra)
  {
    DedupUnique(Basic.options);
  }

  /** The usage text as its sections, with the three option lines left unexpanded. */
  lemma BasicUsageText()
    ensures UsageText(Basic.usagestr, Basic.description, Basic.options, Basic.extra)
            == Basic.usagestr + "\n\nsmall description" + "\n\nOptions:\n"
               + OptionLine(Help, 32) + OptionLine(File, 32) + OptionLine(Version, 32)
  {
    var l1, l2, l3 := OptionLine(Help, 32), OptionLine(File, 32), OptionLine(Version, 32);
    BasicOptionsPart();
    var head := Basic.usagestr + DescriptionPart(Basic.description);
    BasicDescription();
    assert UsageText(Basic.usagestr, Basic.description, Basic.options, Basic.extra)
           == head + ("\n\nOptions:\n" + ((l1 + l2) + l3)) + "";
    ConcatAssoc(head, "\n\nOptions:\n", (l1 + l2) + l3);
    ConcatAssoc(head + "\n\nOptions:\n", l1 + l2, l3);
    ConcatAssoc(head + "\n\nOptions:\n", l1, l2);
  }

  /** The options section: the header and the three lines, padded to 32. */
  lemma BasicOptionsPart()
    ensures OptionsPart(Basic.options)
            == "\n\nOptions:\n" + (OptionLine(Help, 32) + OptionLine(File, 32) + OptionLine(Version, 32))
  {
    BasicPadding();
    ThreeLines(Basic.options, 32);
    assert Basic.options == [Help, File, Version];
  }

  lemma ThreeLines(t: seq<OptionSpec>, pad: nat)
    requires |t| == 3
    ensures OptionLines(t, pad) == OptionLine(t[0], pad) + OptionLine(t[1], pad) + OptionLine(t[2], pad)
  {
    var l0, l1, l2 := OptionLine(t[0], pad), OptionLine(t[1], pad), OptionLine(t[2], pad);
    assert OptionLines(t[2..], pad) == l2 by {
      assert t[2..][0] == t[2] && t[2..][1..] == [];
    }
    assert OptionLines(t[1..], pad) == l1 + l2 by {
      assert t[1..][0] == t[1] && t[1..][1..] == t[2..];
    }
    ConcatAssoc(l0, l1, l2);
  }

  // One lemma per token shape: the token (and its argument) in front of a tail.

  lemma ScanShortH(x: seq<string>, more: seq<Opt>, rest: seq<string>)
    requires Parse(x, S, L) == Success((more, rest))
    ensures Parse(["-h"] + x, S, L) == Success(([Opt("-h", "")] + more, rest))
  {
    var o := Opt("-h", "");
    ShortLetters();
    assert IsShortName(o.name) && o.name[1] == 'h';
    assert EncodeOpt(o, S, L) == ["-h"];
    ParseEncodedOpt(o, x, more, rest, S, L);
  }

  lemma ScanShortF(v: string, x: seq<string>, more: seq<Opt>, rest: seq<string>)
    requires Parse(x, S, L) == Success((more, rest))
    ensures Parse(["-f", v] + x, S, L) == Success(([Opt("-f", v)] + more, rest))
  {
    var o := Opt("-f", v);
    ShortLetters();
    assert IsShortName(o.name) && o.name[1] == 'f';
    assert EncodeOpt(o, S, L) == ["-f", v];
    ParseEncodedOpt(o, x, more, rest, S, L);
  }

  lemma ScanLongFile(v: string, x: seq<string>, more: seq<Opt>, rest: seq<string>)
    requires Parse(x, S, L) == Success((more, rest))
    ensures Parse(["--file", v] + x, S, L) == Success(([Opt("--file", v)] + more, rest))
  {
    var o := Opt("--file", v);
    LongNames();
    assert o.name[2..] == "file" && o.name[..2] == "--";
    assert EncodeOpt(o, S, L) == ["--file", v];
    ParseEncodedOpt(o, x, more, rest, S, L);
  }

  lemma ScanLongVersion(x: seq<string>, more: seq<Opt>, rest: seq<string>)
    requires Parse(x, S, L) == Success((more, rest))
    ensures Parse(["--version"] + x, S, L) == Success(([Opt("--version", "")] + more, rest))
  {
    var o := Opt("--version", "");
    LongNames();
    assert o.name[2..] == "version" && o.name[..2] == "--";
    assert EncodeOpt(o, S, L) == ["--version"];
    ParseEncodedOpt(o, x, more, rest, S, L);
  }

  /** `['-h']`: no error and no positional argument; `help` is `True`, the
      others `None`. */
  lemma HelpOnly(argv: seq<string>)
    requires argv == ["-h"]
    ensures var c := Construct(Basic, argv);
      && c.error == None && c.args == []
      && GetItem(c.flags, "help") == Success(Enabled)
      && GetItem(c.flags, "file") == Success(Absent)
      && GetItem(c.flags, "version") == Success(Absent)
  {
    var opts := [Opt("-h", "")];
    HelpScan(argv, opts);
    BasicFlag(argv, opts, [], 0);
    BasicFlag(argv, opts, [], 1);
    BasicFlag(argv, opts, [], 2);
    LastOfHelp(opts);
  }

  /** After `['-h']` the flags answer attribute lookups: `flags.help` is `True`,
      and an undeclared name raises `OptionError`. */
  lemma HelpOnlyAttributes(argv: seq<string>)
    requires argv == ["-h"]
    ensures var c := Construct(Basic, argv);
      && GetAttr(c.flags, "help") == Success(Enabled)
      && GetAttr(c.flags, "verbose") == Failure(OptionError("verbose"))
  {
    var c := Construct(Basic, argv);
    HelpOnly(argv);
    BasicNames();
    AttrAfterConversion(c.flags, "help");
    AttrAfterConversion(c.flags, "verbose");
  }

  lemma HelpScan(argv: seq<string>, opts: seq<Opt>)
    requires argv == ["-h"] && opts == [Opt("-h", "")]
    ensures Parse(argv, S, L) == Success((opts, []))
  {
    ScanShortH([], [], []);
    assert ["-h"] + [] == argv && opts + [] == opts;
  }

  lemma LastOfHelp(opts: seq<Opt>)
    requires opts == [Opt("-h", "")]
    ensures WellShaped(opts)
    ensures LastAssigned(Help, opts, Absent) == Enabled
    ensures LastAssigned(File, opts, Absent) == Absent
    ensures LastAssigned(Version, opts, Absent) == Absent
  {
    assert opts[0].name[1] == 'h' && opts[..0] == [];
  }

  /** `['--file', '/path/to/a/filename', '--version']`, for any path: `file`
      holds the path, `version` is `True`, `help` is `None`. */
  lemma FileAndVersion(path: string, argv: seq<string>)
    requires argv == ["--file", path, "--version"]
    ensures var c := Construct(Basic, argv);
      && c.error == None && c.args == []
      && GetItem(c.flags, "help") == Success(Absent)
      && GetItem(c.flags, "file") == Success(Str(path))
      && GetItem(c.flags, "version") == Success(Enabled)
  {
    var opts := [Opt("--file", path)] + [Opt("--version", "")];
    FileVersionScan(path);
    assert argv == ["--file", path] + ["--version"];
    FileVersionFlags(argv, opts, path);
  }

  lemma FileVersionFlags(argv: seq<string>, opts: seq<Opt>, path: string)
    requires opts == [Opt("--file", path), Opt("--version", "")]
    requires Parse(argv, S, L) == Success((opts, []))
    ensures var c := Construct(Basic, argv);
      && c.error == None && c.args == []
      && GetItem(c.flags, "help") == Success(Absent)
      && GetItem(c.flags, "file") == Success(Str(path))
      && GetItem(c.flags, "version") == Success(Enabled)
  {
    BasicFlag(argv, opts, [], 0);
    BasicFlag(argv, opts, [], 1);
    BasicFlag(argv, opts, [], 2);
    LastOfFileVersion(path, opts);
  }

  lemma FileVersionScan(path: string)
    ensures Parse(["--file", path] + ["--version"], S, L)
            == Success(([Opt("--file", path)] + [Opt("--version", "")], []))
  {
    VersionAlone();
    ScanLongFile(path, ["--version"], [Opt("--version", "")], []);
  }

  lemma VersionAlone()
    ensures Parse(["--version"], S, L) == Success(([Opt("--version", "")], []))
  {
    ScanLongVersion([], [], []);
    assert ["--version"] + [] == ["--version"];
    assert [Opt("--version", "")] + [] == [Opt("--version", "")];
  }

  lemma LastOfFileVersion(path: string, opts: seq<Opt>)
    requires opts == [Opt("--file", path), Opt("--version", "")]
    ensures WellShaped(opts)
    ensures LastAssigned(Help, opts, Absent) == Absent
    ensures LastAssigned(File, opts, Absent) == Str(path)
    ensures LastAssigned(Version, opts, Absent) == Enabled
  {
    assert opts[..1] == [opts[0]] && [opts[0]][..0] == [];
    assert opts[1].name[1] == '-' && opts[1].name[2..] == "version";
    assert opts[0].name[1] == '-' && opts[0].name[2..] == "file";
    assert !Matches(Help, opts[1]) && !Matches(Help, opts[0]);
    var first := opts[..1];
    assert first[..0] == [] && first[0] == opts[0];
    assert LastAssigned(Help, opts, Absent) == LastAssigned(Help, first, Absent);
    assert LastAssigned(Help, first, Absent) == LastAssigned(Help, [], Absent);
  }

  /** `['--doesnotexist', '-h', '-f', 'filename', '--version']`, for any tokens
      after the unknown option: it is the error, and no flag is set by the
      options after it. */
  lemma UnknownFirst(tail: seq<string>)
    ensures var c := Construct(Basic, ["--doesnotexist"] + tail);
      && c.error == Some(GetoptError(NotRecognized, true, "doesnotexist"))
      && c.args == []
      && GetItem(c.flags, "help") == Success(Absent)
      && GetItem(c.flags, "file") == Success(Absent)
      && GetItem(c.flags, "version") == Success(Absent)
      && GetAttr(c.flags, "help") == Failure(AttributeError("help"))
  {
    assert "--" + "doesnotexist" == "--doesnotexist";
    BasicWellFormed();
    UnknownOptionExitsOne(Basic, "doesnotexist", tail, c => Success(0));
  }

  /** For any value, the short and the long spelling of the file option give the
      same command, and so does the value attached to the letter. */
  lemma FileSpellings(v: string)
    requires v != ""
    ensures Construct(Basic, ["-f", v]) == Construct(Basic, ["--file", v])
    ensures Construct(Basic, ["-f" + v]) == Construct(Basic, ["-f", v])
    ensures GetItem(Construct(Basic, ["-f" + v]).flags, "file") == Success(Str(v))
  {
    var short, long := ["-f", v], ["--file", v];
    var a, b := [Opt("-f", v)], [Opt("--file", v)];
    ShortFileScan(v, short);
    LongFileScan(v, long);
    SameFlagsFileSpellings(short, long, a, b);
    AttachedFile(short, ["-f" + v], v);
    BasicSpecs();
    ScanDecides(Basic, ["-f" + v], short);
    ShortFileFlag(short, a);
  }

  lemma ShortFileFlag(short: seq<string>, a: seq<Opt>)
    requires |a| == 1 && a[0].name == "-f"
    requires Parse(short, S, L) == Success((a, []))
    ensures GetItem(Construct(Basic, short).flags, "file") == Success(Str(a[0].value))
  {
    BasicFlag(short, a, [], 1);
    assert a[0].name[1] == 'f' && a[..0] == [];
  }

  lemma ShortFileScan(v: string, short: seq<string>)
    requires short == ["-f", v]
    ensures Parse(short, S, L) == Success(([Opt("-f", v)], []))
  {
    ScanShortF(v, [], [], []);
    assert ["-f", v] + [] == short && [Opt("-f", v)] + [] == [Opt("-f", v)];
  }

  lemma LongFileScan(v: string, long: seq<string>)
    requires long == ["--file", v]
    ensures Parse(long, S, L) == Success(([Opt("--file", v)], []))
  {
    ScanLongFile(v, [], [], []);
    assert ["--file", v] + [] == long && [Opt("--file", v)] + [] == [Opt("--file", v)];
  }

  lemma AttachedFile(short: seq<string>, attached: seq<string>, v: string)
    requires v != "" && short == ["-f", v] && attached == ["-f" + v]
    ensures Parse(attached, S, L) == Parse(short, S, L)
  {
    ShortLetters();
    AttachedShortArgument('f', v, [], S, L);
    assert ['-', 'f'] == "-f";
    assert attached == [['-', 'f'] + v] + [] && short == [['-', 'f'], v] + [];
  }

  lemma SameFlagsFileSpellings(short: seq<string>, long: seq<string>, a: seq<Opt>, b: seq<Opt>)
    requires |a| == 1 && |b| == 1 && a[0].name == "-f" && b[0].name == "--file" && a[0].value == b[0].value
    requires Parse(short, S, L) == Success((a, []))
    requires Parse(long, S, L) == Success((b, []))
    ensures Construct(Basic, short) == Construct(Basic, long)
  {
    BasicSpecs();
    FileTargets(a, b);
    SameTargetsSameCommand(Basic, short, long, a, b, []);
  }

  /** `-f` and `--file` name the same entry of the table. */
  lemma FileTargets(a: seq<Opt>, b: seq<Opt>)
    requires |a| == 1 && |b| == 1 && a[0].name == "-f" && b[0].name == "--file" && a[0].value == b[0].value
    ensures WellShaped(a) && WellShaped(b) && SameTargets([Help, File, Version], a, b)
  {
    assert b[0].name[2..] == "file" && b[0].name[1] == '-' && a[0].name[1] == 'f';
  }

  /** A short form of two letters, `ab`: the scanner accepts `-a` and `-b`, but
      the loop compares the reported letter with the whole short form, so
      neither option names the entry and its flag stays `None`. */
  lemma TwoLetterShortDropped(e: OptionSpec, t: seq<OptionSpec>)
    requires e == OptionSpec("multi", "ab", "", "") && t == [e]
    ensures ShortHasArg('a', ShortOpts(t)) == Some(false)
    ensures ShortHasArg('b', ShortOpts(t)) == Some(false)
    ensures !Matches(e, Opt("-a", "")) && !Matches(e, Opt("-b", ""))
  {
    assert ShortOpts(t) == "ab" + ShortOpts([]);
    assert "ab"[1..] == "b";
  }

  /** A long name ending in `=`, `a=`, goes into `longopts` as `a=`, which the
      scanner reads as the option `a` taking an argument: `--a x` is reported,
      but it does not name the entry. */
  lemma EqualsNameDropped(e: OptionSpec, t: seq<OptionSpec>, v: string)
    requires e == OptionSpec("a=", "", "", "") && t == [e]
    ensures LongHasArg("a", LongOpts(t)) == Some(true)
    ensures !Matches(e, Opt("--a", v))
  {
    assert LongOpts(t) == ["a="];
    assert "a" + "=" == "a=" && "a" != "a=";
    assert "--a"[2..] == "a";
  }

  // ---------------------------------------------------------------------------
  // Dispatch.

  const Tool := CommandDecl("usage: tool <command>", "", [Help], "", map["build" := Basic])

  lemma ToolSpecs()
    ensures Options(Tool) == [Help]
    ensures ShortOpts(Options(Tool)) == "h"
    ensures LongOpts(Options(Tool)) == ["help"]
  {
    DedupUnique(Tool.options);
    assert [Help][1..] == [];
    assert ShortOpts([Help]) == "h" + "";
    assert LongOpts([Help]) == ["help"] + [];
  }

  /** A word (not empty, not starting with a dash) ends the options. */
  predicate Word(w: string) {
    |w| > 0 && w[0] != '-'
  }

  /** No positional argument: usage and status 2. */
  lemma NoCommand()
    ensures Run(Construct(Tool, [])) == Exit(2)
  {
    ToolSpecs();
    ConstructOnSuccess(Tool, [], [], []);
  }

  /** A first word that names no command: status 1. */
  lemma UnknownCommand(w: string, rest: seq<string>)
    requires Word(w) && w != "build"
    ensures Run(Construct(Tool, [w] + rest)) == Exit(1)
  {
    ToolSpecs();
    WordStops(w, rest, "h", ["help"]);
    ConstructOnSuccess(Tool, [w] + rest, [], [w] + rest);
  }

  /** `-h build -h extra`: the options before the name belong to the tool; the
      subcommand is built on the tokens after the name. */
  lemma KnownCommand(sub: seq<string>)
    ensures Run(Construct(Tool, ["-h", "build"] + sub)) == Child(Construct(Basic, sub))
  {
    var argv := ["-h", "build"] + sub;
    ToolScan(sub);
    ConstructOnSuccess(Tool, argv, [Opt("-h", "")], ["build"] + sub);
    assert (["build"] + sub)[1..] == sub;
  }

  lemma ToolScan(sub: seq<string>)
    ensures Scan(Tool, ["-h", "build"] + sub) == Success(([Opt("-h", "")], ["build"] + sub))
  {
    var after := ["build"] + sub;
    ToolScanIsParse(["-h"] + after);
    ToolParse(after, sub);
    assert ["-h"] + after == ["-h", "build"] + sub;
  }

  /** The tool's `shortopts` and `longopts`. */
  const TS := "h"
  const TL := ["help"]

  /** The tool scans with `shortopts` `h` and `longopts` `help`. */
  lemma ToolScanIsParse(argv: seq<string>)
    ensures Scan(Tool, argv) == Parse(argv, TS, TL)
  {
    ToolSpecs();
  }

  /** `-h`, then the subcommand name and what follows it. */
  lemma ToolParse(after: seq<string>, sub: seq<string>)
    requires after == ["build"] + sub
    ensures Parse(["-h"] + after, TS, TL) == Success(([Opt("-h", "")], after))
  {
    ToolWordStops(sub);
    ToolShortH(after, after);
  }

  /** The tool's `-h` in front of a tail that holds no options. */
  lemma ToolShortH(x: seq<string>, rest: seq<string>)
    requires Parse(x, TS, TL) == Success(([], rest))
    ensures Parse(["-h"] + x, TS, TL) == Success(([Opt("-h", "")], rest))
  {
    HelpEncodes();
    ParseEncodedOpt(Opt("-h", ""), x, [], rest, TS, TL);
    assert [Opt("-h", "")] + [] == [Opt("-h", "")];
  }

  /** The subcommand name ends the tool's options. */
  lemma ToolWordStops(sub: seq<string>)
    ensures Parse(["build"] + sub, TS, TL) == Success(([], ["build"] + sub))
  {
    assert "build"[0] == 'b';
    WordStops("build", sub, TS, TL);
  }

  /** `-h` is a boolean option of the tool, written as the single token `-h`. */
  lemma HelpEncodes()
    ensures Encodable(Opt("-h", ""), TS, TL)
    ensures EncodeOpt(Opt("-h", ""), TS, TL) == ["-h"]
  {
    assert IsShortName("-h") && "-h"[1] == 'h';
  }

  /** The subcommand's own `-h` sets its flag, and the word after it is its
      positional argument. */
  lemma SubcommandHelp(w: string)
    requires Word(w)
    ensures var c := Construct(Basic, ["-h", w]);
      && c.args == [w] && GetItem(c.flags, "help") == Success(Enabled)
  {
    var opts := [Opt("-h", "")];
    SubScan(w);
    BasicFlag(["-h", w], opts, [w], 0);
    LastOfHelp(opts);
  }

  lemma SubScan(w: string)
    requires Word(w)
    ensures Parse(["-h", w], S, L) == Success(([Opt("-h", "")], [w]))
  {
    WordStops(w, [], S, L);
    assert [w] + [] == [w];
    ScanShortH([w], [], [w]);
    assert ["-h"] + [w] == ["-h", w] && [Opt("-h", "")] + [] == [Opt("-h", "")];
  }

  /** A word ends the options: it and everything after it are positional. */
  lemma WordStops(w: string, rest: seq<string>, shortopts: string, longopts: seq<string>)
    requires Word(w)
    ensures Parse([w] + rest, shortopts, longopts) == Success(([], [w] + rest))
  {
    assert w[..1][0] == w[0];
    PositionalStops(w, rest, shortopts, longopts);
  }
}

=== FILE: command_base.dfy ===
/** `CommandBase`: a command object built from a command class's declaration
    and an argument vector, its dispatch to subcommands, the registration of a
    parent's flags, and the `run_and_exit` shortcut. */
module CommandBase {
  import opened Results
  import opened Text
  import opened Getopt
  import opened OptionTable
  import opened Usage
  import opened Flags

  /** The class attributes of a command class: the synopsis, the description,
      `optionList`, `usageTextExtra`, and `commands`, which maps subcommand names
      to the subcommand classes they construct. */
  datatype CommandDecl = CommandDecl(
    usagestr: string,
    description: string,
    options: seq<OptionSpec>,
    extra: string,
    commands: map<string, CommandDecl>)

  /** The attributes `CommandBase` itself declares. */
  const DefaultDecl := CommandDecl("usage: command [options]", "", [], "", map[])

  /** A constructed command object: its class, and the instance attributes
      `flags`, `args`, `error` and `parentFlags`. The `usage` attribute depends
      on the class alone and is `UsageOf(c)`. */
  datatype Command = Command(
    decl: CommandDecl,
    flags: FlagTable,
    args: seq<string>,
    error: Option<GetoptError>,
    parentFlags: map<string, FlagValue>)

  /** What `run` does: raise `CommandExit` with a status, or return the
      subcommand object it constructed. */
  datatype DispatchOutcome = Exit(code: int) | Child(command: Command)

  /** A class's `run` as `run_and_exit` calls it: it returns a status
      (`Success`), or raises `CommandExit` with a status (`Failure`). */
  type RunMethod = Command -> Result<int, int>

  /** How `run_and_exit` ends: `sys.exit` with a status, or a `CommandExit`
      raised by `run` that escapes it uncaught. */
  datatype ExitOutcome = SysExit(status: int) | Escaped(code: int)

  /** The option table as the constructor holds it, after `OrderedDict`. */
  function Options(d: CommandDecl): seq<OptionSpec> {
    Dedup(d.options)
  }

  /** What `getopt` is asked to do with `argv`. */
  function Scan(d: CommandDecl, argv: seq<string>): Result<(seq<Opt>, seq<string>), GetoptError> {
    Parse(argv, ShortOpts(Options(d)), LongOpts(Options(d)))
  }

  /** `CommandBase.__init__(argv)`. The usage text and the flags (all `None`)
      are built before scanning; a scan error is stored and stops the
      constructor with `args` empty and `flags` a plain dict; otherwise the
      reported options are assigned and `flags` becomes a `dictobject`. */
  function Construct(d: CommandDecl, argv: seq<string>): (c: Command)
    ensures c.decl == d && c.parentFlags == map[]
    ensures c.flags.values.Keys == NameSet(d.options)
    ensures c.error.Some? <==> Scan(d, argv).Failure?
    ensures c.error.Some? ==>
      && c.error.value == Scan(d, argv).error
      && c.args == [] && !c.flags.byAttribute
      && forall n :: n in c.flags.values ==> c.flags.values[n] == Absent
    ensures c.error.None? ==> c.flags.byAttribute && IsSuffix(c.args, argv)
  {
    var t := Options(d);
    var init := InitialFlags(t);
    match Parse(argv, ShortOpts(t), LongOpts(t))
    case Failure(e) => Command(d, FlagTable(init, false), [], Some(e), map[])
    case Success((opts, rest)) =>
      ScanShape(d, argv);
      Command(d, FlagTable(AssignAll(t, opts, init), true), rest, None, map[])
  }

  /** The `usage` attribute of a command object: built from its class's
      synopsis, description, option table (after `OrderedDict`) and extra text. */
  function UsageOf(c: Command): (r: string)
    ensures StartsWith(r, c.decl.usagestr)
    ensures c.decl.description == "" && c.decl.options == [] && c.decl.extra == "" ==> r == c.decl.usagestr
  {
    UsageText(c.decl.usagestr, c.decl.description, Options(c.decl), c.decl.extra)
  }

  /** The usage text is built before the arguments are scanned: every argument
      vector, valid or not, gives a command of a class the same usage. */
  lemma UsageIgnoresArguments(d: CommandDecl, argv: seq<string>, argv': seq<string>)
    ensures UsageOf(Construct(d, argv)) == UsageOf(Construct(d, argv'))
  {
    assert Construct(d, argv).decl == Construct(d, argv').decl;
  }

  /** A successful scan reports options of at least a dash and a letter, and
      leaves a suffix of the argument vector. */
  lemma ScanShape(d: CommandDecl, argv: seq<string>)
    requires Scan(d, argv).Success?
    ensures WellShaped(Scan(d, argv).value.0)
    ensures IsSuffix(Scan(d, argv).value.1, argv)
  {
    var t := Options(d);
    ParseSound(argv, ShortOpts(t), LongOpts(t));
    var opts := Scan(d, argv).value.0;
    assert forall j :: 0 <= j < |opts| ==> ValidOpt(opts[j], ShortOpts(t), LongOpts(t));
  }

  /** `CommandBase.run`: with no positional argument, show the usage and exit
      with status 2; with a known subcommand name first, construct that
      subcommand on the arguments after it; otherwise exit with status 1. */
  function Run(c: Command): (r: DispatchOutcome)
    ensures r == Exit(2) <==> c.args == []
    ensures r == Exit(1) <==> c.args != [] && c.args[0] !in c.decl.commands
    ensures r.Child? <==> c.args != [] && c.args[0] in c.decl.commands
    ensures r.Child? ==> r.command == Construct(c.decl.commands[c.args[0]], c.args[1..])
    ensures r.Child? ==> |r.command.args| < |c.args|
  {
    if c.args == [] then Exit(2)
    else if c.args[0] in c.decl.commands then
      var child := Construct(c.decl.commands[c.args[0]], c.args[1..]);
      assert |child.args| <= |c.args[1..]|;
      Child(child)
    else Exit(1)
  }

  /** `registerParentFlag(name, value)`: record one flag of the parent and hand
      back the same command. */
  function RegisterParentFlag(c: Command, name: string, value: FlagValue): (r: Command)
    ensures name in r.parentFlags && r.parentFlags[name] == value
    ensures r.parentFlags.Keys == c.parentFlags.Keys + {name}
    ensures forall k :: k in c.parentFlags && k != name ==> r.parentFlags[k] == c.parentFlags[k]
    ensures r.(parentFlags := c.parentFlags) == c
  {
    c.(parentFlags := c.parentFlags[name := value])
  }

  /** `run_and_exit`: construct the command, exit with status 1 on a scan error,
      and otherwise exit with what the command's `run` returns. The class's own
      `run` is the parameter `run`; nothing catches a `CommandExit` it raises. */
  function RunAndExit(d: CommandDecl, argv: seq<string>, run: RunMethod): (r: ExitOutcome)
    ensures Scan(d, argv).Failure? ==> r == SysExit(1)
    ensures r.Escaped? <==> Scan(d, argv).Success? && run(Construct(d, argv)).Failure?
    ensures Scan(d, argv).Success? ==> match run(Construct(d, argv))
      case Success(status) => r == SysExit(status)
      case Failure(code) => r == Escaped(code)
  {
    var c := Construct(d, argv);
    if c.error.Some? then SysExit(1)
    else match run(c)
      case Success(status) => SysExit(status)
      case Failure(code) => Escaped(code)
  }

  /** With the base class's `run`, which raises `CommandExit(2)` without
      arguments and `CommandExit(1)` for an unknown subcommand, `run_and_exit`
      never reaches `sys.exit` on those paths: the exception escapes it. */
  lemma BaseRunEscapes(d: CommandDecl, argv: seq<string>, run: RunMethod)
    requires Scan(d, argv).Success?
    requires forall c :: Run(c).Exit? ==> run(c) == Failure(Run(c).code)
    ensures Construct(d, argv).args == [] ==> RunAndExit(d, argv, run) == Escaped(2)
    ensures var args := Construct(d, argv).args;
      args != [] && args[0] !in d.commands ==> RunAndExit(d, argv, run) == Escaped(1)
  {
    var c := Construct(d, argv);
    assert c.decl == d;
    assert Run(c).Exit? ==> run(c) == Failure(Run(c).code);
  }

  // ---------------------------------------------------------------------------
  // The flags after a successful scan.

  /** Each flag holds the value of the last option that names its entry, or
      `None` when none does; `True` only for a boolean option and a string only
      for an argument-taking one. */
  lemma FlagsAreLastOccurrence(d: CommandDecl, argv: seq<string>, i: nat)
    requires i < |Options(d)|
    requires Scan(d, argv).Success?
    ensures var t, opts := Options(d), Scan(d, argv).value.0;
      && WellShaped(opts)
      && Construct(d, argv).flags.values[t[i].name] == LastAssigned(t[i], opts, Absent)
      && (LastAssigned(t[i], opts, Absent) == Absent || FitsEntry(t[i], LastAssigned(t[i], opts, Absent)))
  {
    var t := Options(d);
    var opts := Scan(d, argv).value.0;
    ScanShape(d, argv);
    assert t[i].name in InitialFlags(t);
    AssignAllAt(t, opts, InitialFlags(t), i);
    LastAssignedFits(t[i], opts, Absent);
  }

  lemma LongOptionMatches(t: seq<OptionSpec>, o: Opt)
    requires forall i :: 0 <= i < |t| ==> ValidEntry(t[i])
    requires UniqueNames(t)
    requires IsLongName(o.name) && LongHasArg(o.name[2..], LongOpts(t)).Some?
    ensures exists i :: 0 <= i < |t| && Matches(t[i], o)
  {
    var n := o.name[2..];
    assert o.name[1] == o.name[..2][1] == '-';
    LongOptsLookup(t, n);
    var r := EntryByName(t, n);
    assert r.Some?;
    assert t[r.value].name == n;
  }

  lemma ShortOptionMatches(t: seq<OptionSpec>, o: Opt)
    requires forall i :: 0 <= i < |t| ==> ValidEntry(t[i])
    requires UniqueNames(t)
    requires |o.name| == 2 && ShortHasArg(o.name[1], ShortOpts(t)).Some?
    ensures exists i :: 0 <= i < |t| && Matches(t[i], o)
  {
    ShortOptsLookup(t, o.name[1]);
    var i := EntryByShort(t, o.name[1]).value;
    assert t[i].short == [o.name[1]];
    assert Matches(t[i], o);
  }

  /** In a table of valid entries with unique names (shared letters allowed),
      every option the scanner reports names an entry:
      no reported option is dropped by the assignment loop. */
  lemma ReportedOptionMatches(t: seq<OptionSpec>, o: Opt)
    requires forall i :: 0 <= i < |t| ==> ValidEntry(t[i])
    requires UniqueNames(t)
    requires ValidOpt(o, ShortOpts(t), LongOpts(t))
    ensures |o.name| >= 2
    ensures exists i :: 0 <= i < |t| && Matches(t[i], o)
  {
    if IsLongName(o.name) && LongHasArg(o.name[2..], LongOpts(t)).Some? {
      LongOptionMatches(t, o);
    } else {
      ShortOptionMatches(t, o);
    }
  }

  /** Every option a successful scan reports sets some flag. */
  lemma OptionsAreDeclared(d: CommandDecl, argv: seq<string>)
    requires forall i :: 0 <= i < |d.options| ==> ValidEntry(d.options[i])
    requires UniqueNames(d.options)
    requires Scan(d, argv).Success?
    ensures var opts := Scan(d, argv).value.0;
      forall j :: 0 <= j < |opts| ==> exists i :: 0 <= i < |d.options| && |opts[j].name| >= 2 && Matches(d.options[i], opts[j])
  {
    var t := Options(d);
    DedupUnique(d.options);
    ParseSound(argv, ShortOpts(t), LongOpts(t));
    var opts := Scan(d, argv).value.0;
    forall j | 0 <= j < |opts|
      ensures exists i :: 0 <= i < |d.options| && |opts[j].name| >= 2 && Matches(d.options[i], opts[j])
    {
      ReportedOptionMatches(t, opts[j]);
    }
  }

  // ---------------------------------------------------------------------------
  // Equivalent spellings give the same command.

  /** Two options that name the same entries and carry the same value. */
  predicate SameTarget(t: seq<OptionSpec>, a: Opt, b: Opt)
    requires |a.name| >= 2 && |b.name| >= 2
  {
    a.value == b.value && forall i :: 0 <= i < |t| ==> (Matches(t[i], a) <==> Matches(t[i], b))
  }

  predicate SameTargets(t: seq<OptionSpec>, a: seq<Opt>, b: seq<Opt>)
    requires WellShaped(a) && WellShaped(b)
  {
    |a| == |b| && forall j :: 0 <= j < |a| ==> SameTarget(t, a[j], b[j])
  }

  lemma {:induction false} AssignOneSame(t: seq<OptionSpec>, a: Opt, b: Opt, f: map<string, FlagValue>)
    requires |a.name| >= 2 && |b.name| >= 2
    requires SameTarget(t, a, b)
    ensures AssignOne(t, a, f) == AssignOne(t, b, f)
  {
    if |t| > 0 {
      assert Matches(t[0], a) <==> Matches(t[0], b);
      assert SameTarget(t[1..], a, b) by {
        forall i | 0 <= i < |t[1..]| ensures Matches(t[1..][i], a) <==> Matches(t[1..][i], b) {
          assert t[1..][i] == t[i + 1];
        }
      }
      var f1 := if Matches(t[0], a) then f[t[0].name := Assigned(t[0], a)] else f;
      AssignOneSame(t[1..], a, b, f1);
    }
  }

  lemma {:induction false} AssignAllSame(t: seq<OptionSpec>, a: seq<Opt>, b: seq<Opt>, f: map<string, FlagValue>)
    requires WellShaped(a) && WellShaped(b)
    requires SameTargets(t, a, b)
    ensures AssignAll(t, a, f) == AssignAll(t, b, f)
    decreases |a|
  {
    if |a| > 0 {
      AssignOneSame(t, a[0], b[0], f);
      assert SameTargets(t, a[1..], b[1..]) by {
        forall j | 0 <= j < |a[1..]| ensures SameTarget(t, a[1..][j], b[1..][j]) {
          assert a[1..][j] == a[j + 1] && b[1..][j] == b[j + 1];
        }
      }
      AssignAllSame(t, a[1..], b[1..], AssignOne(t, a[0], f));
    }
  }

  /** The options written as tokens, then `--`, then positional arguments. */
  function Spelled(d: CommandDecl, opts: seq<Opt>, rest: seq<string>): seq<string>
    requires forall i :: 0 <= i < |opts| ==> Encodable(opts[i], ShortOpts(Options(d)), LongOpts(Options(d)))
  {
    Encode(opts, ShortOpts(Options(d)), LongOpts(Options(d))) + (["--"] + rest)
  }

  /** The command built from a successful scan. */
  lemma ConstructOnSuccess(d: CommandDecl, argv: seq<string>, opts: seq<Opt>, rest: seq<string>)
    requires Scan(d, argv) == Success((opts, rest))
    ensures WellShaped(opts)
    ensures var c := Construct(d, argv);
      && c.error == None
      && c.args == rest
      && c.flags == FlagTable(AssignAll(Options(d), opts, InitialFlags(Options(d))), true)
  {
    ScanShape(d, argv);
  }

  /** The command depends on its argument vector only through what the scanner
      makes of it. */
  lemma ScanDecides(d: CommandDecl, argv: seq<string>, argv': seq<string>)
    requires Scan(d, argv) == Scan(d, argv')
    ensures Construct(d, argv) == Construct(d, argv')
  {
  }

  /** Writing options out and constructing the command reads them back: no
      error, the positional arguments after `--`, and the flags the options
      assign. */
  lemma ParsedFlags(d: CommandDecl, opts: seq<Opt>, rest: seq<string>)
    requires forall i :: 0 <= i < |opts| ==> Encodable(opts[i], ShortOpts(Options(d)), LongOpts(Options(d)))
    ensures WellShaped(opts)
    ensures var c := Construct(d, Spelled(d, opts, rest));
      && c.error == None
      && c.args == rest
      && c.flags == FlagTable(AssignAll(Options(d), opts, InitialFlags(Options(d))), true)
  {
    RoundTrip(opts, rest, ShortOpts(Options(d)), LongOpts(Options(d)));
    ConstructOnSuccess(d, Spelled(d, opts, rest), opts, rest);
  }

  /** Two argument vectors whose scans leave the same positional arguments and
      report options naming the same entries with the same values construct the
      same command. */
  lemma SameTargetsSameCommand(d: CommandDecl, argv: seq<string>, argv': seq<string>,
                               opts: seq<Opt>, opts': seq<Opt>, rest: seq<string>)
    requires Scan(d, argv) == Success((opts, rest)) && Scan(d, argv') == Success((opts', rest))
    requires WellShaped(opts) && WellShaped(opts') && SameTargets(Options(d), opts, opts')
    ensures Construct(d, argv) == Construct(d, argv')
  {
    AssignAllSame(Options(d), opts, opts', InitialFlags(Options(d)));
  }

  /** In a well-formed table, the short spelling `-x` of an entry and its long
      spelling `--name` name exactly the same entries: that entry alone. */
  lemma SpellingTargets(t: seq<OptionSpec>, i: nat, v: string)
    requires WellFormed(t)
    requires i < |t| && t[i].short != ""
    ensures SameTarget(t, Opt("-" + t[i].short, v), Opt("--" + t[i].name, v))
  {
    var a, b := Opt("-" + t[i].short, v), Opt("--" + t[i].name, v);
    assert t[i].short == [t[i].short[0]] && a.name[1] == t[i].short[0] != '-';
    assert b.name[1] == '-' && b.name[2..] == t[i].name;
    forall k | 0 <= k < |t|
      ensures Matches(t[k], a) <==> k == i
      ensures Matches(t[k], b) <==> k == i
    {
      if k < i {
        assert t[k].name != t[i].name;
      } else if i < k {
        assert t[i].name != t[k].name;
      }
    }
  }

  /** `b` spells `a` again: the same option, or, for a short option, the long
      option of the entry its letter declares, with the same value. */
  predicate Respelled(t: seq<OptionSpec>, a: Opt, b: Opt) {
    || b == a
    || exists i :: 0 <= i < |t| && t[i].short != "" && a.name == "-" + t[i].short
                   && b == Opt("--" + t[i].name, a.value)
  }

  /** In a well-formed table, replacing any short options by the long spellings
      of their entries, such as `-f x` by `--file x`, constructs the same
      command. */
  lemma SpellingsAgree(d: CommandDecl, a: seq<Opt>, b: seq<Opt>, rest: seq<string>)
    requires WellFormed(d.options)
    requires forall i :: 0 <= i < |a| ==> Encodable(a[i], ShortOpts(Options(d)), LongOpts(Options(d)))
    requires forall i :: 0 <= i < |b| ==> Encodable(b[i], ShortOpts(Options(d)), LongOpts(Options(d)))
    requires |a| == |b| && forall j :: 0 <= j < |a| ==> Respelled(d.options, a[j], b[j])
    ensures Construct(d, Spelled(d, a, rest)) == Construct(d, Spelled(d, b, rest))
  {
    ParsedFlags(d, a, rest);
    ParsedFlags(d, b, rest);
    RespelledTargets(d.options, a, b);
    DedupUnique(d.options);
    AssignAllSame(Options(d), a, b, InitialFlags(Options(d)));
  }

  lemma RespelledTargets(t: seq<OptionSpec>, a: seq<Opt>, b: seq<Opt>)
    requires WellFormed(t) && WellShaped(a) && WellShaped(b)
    requires |a| == |b| && forall j :: 0 <= j < |a| ==> Respelled(t, a[j], b[j])
    ensures SameTargets(t, a, b)
  {
    forall j | 0 <= j < |a| ensures SameTarget(t, a[j], b[j]) {
      if b[j] != a[j] {
        var i :| 0 <= i < |t| && t[i].short != "" && a[j].name == "-" + t[i].short
                 && b[j] == Opt("--" + t[i].name, a[j].value);
        SpellingTargets(t, i, a[j].value);
      }
    }
  }

  // ---------------------------------------------------------------------------
  // Dispatch and exit status.

  /** Options followed by a subcommand name hand the arguments after the name,
      untouched, to that subcommand. */
  lemma DispatchAfterOptions(d: CommandDecl, opts: seq<Opt>, name: string, rest: seq<string>)
    requires forall i :: 0 <= i < |opts| ==> Encodable(opts[i], ShortOpts(Options(d)), LongOpts(Options(d)))
    requires !IsOptionToken(name) && name in d.commands
    ensures Run(Construct(d, Encode(opts, ShortOpts(Options(d)), LongOpts(Options(d))) + ([name] + rest)))
            == Child(Construct(d.commands[name], rest))
  {
    RoundTripStops(opts, [name] + rest, ShortOpts(Options(d)), LongOpts(Options(d)));
    assert ([name] + rest)[1..] == rest;
  }

  /** An undeclared long option is a scan error: the command records it and
      `run_and_exit` exits with status 1, whatever `run` would do. */
  lemma UnknownOptionExitsOne(d: CommandDecl, n: string, tail: seq<string>, run: RunMethod)
    requires LongNamesPlain(d.options)
    requires n != "" && '=' !in n && n !in NameSet(d.options)
    ensures Construct(d, ["--" + n] + tail).error == Some(GetoptError(NotRecognized, true, n))
    ensures RunAndExit(d, ["--" + n] + tail, run) == SysExit(1)
  {
    DedupUnique(d.options);
    LongOptsLookup(d.options, n);
    UnknownLongOption(n, tail, ShortOpts(d.options), LongOpts(d.options));
  }

  /** A declared argument-taking option at the very end is a scan error. */
  lemma MissingArgumentExitsOne(d: CommandDecl, i: nat, run: RunMethod)
    requires LongNamesPlain(d.options)
    requires i < |d.options| && d.options[i].arg != ""
    ensures Construct(d, ["--" + d.options[i].name]).error
            == Some(GetoptError(RequiresArgument, true, d.options[i].name))
    ensures RunAndExit(d, ["--" + d.options[i].name], run) == SysExit(1)
  {
    var e := d.options[i];
    DedupUnique(d.options);
    LongOptsLookup(d.options, e.name);
    LookupAt(d.options, i);
    assert ("--" + e.name)[2..] == e.name;
    assert '=' !in ("--" + e.name)[2..];
    MissingArgument("--" + e.name, ShortOpts(d.options), LongOpts(d.options));
  }

  /** A command of `CommandBase` itself declares no options and no subcommands:
      its usage is the bare synopsis, and `run` exits with status 2 without
      arguments and with status 1 on any positional argument. */
  lemma DefaultCommand(argv: seq<string>)
    requires argv == [] || !IsOptionToken(argv[0])
    ensures UsageOf(Construct(DefaultDecl, argv)) == "usage: command [options]"
    ensures Construct(DefaultDecl, argv).args == argv
    ensures Run(Construct(DefaultDecl, argv)) == if argv == [] then Exit(2) else Exit(1)
  {
    DedupUnique(DefaultDecl.options);
  }

  /** ... and every option given to it is a scan error. */
  lemma DefaultRejectsOptions(n: string, tail: seq<string>, run: RunMethod)
    requires n != "" && '=' !in n
    ensures Construct(DefaultDecl, ["--" + n] + tail).error == Some(GetoptError(NotRecognized, true, n))
    ensures RunAndExit(DefaultDecl, ["--" + n] + tail, run) == SysExit(1)
  {
    UnknownOptionExitsOne(DefaultDecl, n, tail, run);
  }

  // ---------------------------------------------------------------------------
  // Parent flags.

  /** Registering the same name twice keeps the later value. */
  lemma RegisterOverwrites(c: Command, name: string, v: FlagValue, w: FlagValue)
    ensures RegisterParentFlag(RegisterParentFlag(c, name, v), name, w) == RegisterParentFlag(c, name, w)
  {
    assert c.parentFlags[name := v][name := w] == c.parentFlags[name := w];
  }

  /** Registrations of different names commute. */
  lemma RegisterCommutes(c: Command, n: string, v: FlagValue, m: string, w: FlagValue)
    requires n != m
    ensures RegisterParentFlag(RegisterParentFlag(c, n, v), m, w)
            == RegisterParentFlag(RegisterParentFlag(c, m, w), n, v)
  {
    assert c.parentFlags[n := v][m := w] == c.parentFlags[m := w][n := v];
  }
}

=== FILE: flags.dfy ===
/** The parsed flags of a command: one value per declared long name, filled in
    from the options the scanner reports, and looked up by name. */
module Flags {
  import opened Results
  import opened Getopt
  import opened OptionTable

  /** A flag's value: `None` when the option was not given, `True` for a given
      boolean option, the argument string for a given argument-taking option. */
  datatype FlagValue = Absent | Enabled | Str(value: string)

  /** The exceptions a flag lookup raises. */
  datatype LookupError =
    | OptionError(name: string)     // attribute lookup of an undeclared name on `dictobject`
    | KeyError(key: string)         // item lookup of a missing key on any dict
    | AttributeError(attr: string)  // attribute lookup on a plain dict

  /** The `flags` attribute: the map, and whether it has been converted to a
      `dictobject` (which answers attribute lookups) or is still a plain `dict`. */
  datatype FlagTable = FlagTable(values: map<string, FlagValue>, byAttribute: bool)

  /** `flags[name]`. */
  function GetItem(f: FlagTable, name: string): (r: Result<FlagValue, LookupError>)
    ensures r.Success? <==> name in f.values
    ensures r.Success? ==> r.value == f.values[name]
    ensures r.Failure? ==> r.error == KeyError(name)
  {
    if name in f.values then Success(f.values[name]) else Failure(KeyError(name))
  }

  /** `flags.name`: a `dictobject` returns the stored value of a declared name,
      including `None`, and raises `OptionError` for any other name. A plain
      `dict` has no attribute of a flag's name. */
  function GetAttr(f: FlagTable, name: string): (r: Result<FlagValue, LookupError>)
    ensures f.byAttribute ==> (r.Success? <==> name in f.values)
    ensures f.byAttribute && r.Success? ==> r.value == f.values[name]
    ensures f.byAttribute && r.Failure? ==> r.error == OptionError(name)
    ensures !f.byAttribute ==> r == Failure(AttributeError(name))
  {
    if !f.byAttribute then Failure(AttributeError(name))
    else if name in f.values then Success(f.values[name])
    else Failure(OptionError(name))
  }

  /** On a converted table, an attribute lookup agrees with an item lookup,
      except that a missing name raises `OptionError` instead of `KeyError`. */
  lemma AttrAfterConversion(f: FlagTable, name: string)
    requires f.byAttribute
    ensures GetAttr(f, name) == match GetItem(f, name)
      case Success(v) => Success(v)
      case Failure(_) => Failure(OptionError(name))
  {
  }

  /** Every declared name mapped to `None`. */
  function InitialFlags(t: seq<OptionSpec>): (m: map<string, FlagValue>)
    ensures m.Keys == NameSet(t)
    ensures forall n :: n in m ==> m[n] == Absent
  {
    map n | n in NameSet(t) :: Absent
  }

  /** Whether a reported option names entry `e`: a short option by its letter, a
      long option (second character `-`) by its name. An entry is named by its
      own long spelling, and by its own short spelling when that is one letter
      other than `-`. */
  predicate Matches(e: OptionSpec, o: Opt)
    requires |o.name| >= 2
    ensures o.name == "--" + e.name ==> Matches(e, o)
    ensures |e.short| == 1 && e.short != "-" && o.name == "-" + e.short ==> Matches(e, o)
  {
    if o.name[1] != '-' then [o.name[1]] == e.short else o.name[2..] == e.name
  }

  /** The value a matching option gives entry `e`: never `None`, `True` for a
      boolean entry, and the option's own value for an argument-taking one. */
  function Assigned(e: OptionSpec, o: Opt): (v: FlagValue)
    ensures v != Absent && FitsEntry(e, v)
    ensures v.Str? ==> v.value == o.value
  {
    if e.arg != "" then Str(o.value) else Enabled
  }

  /** Every reported option has a dash and a letter or more. */
  predicate WellShaped(opts: seq<Opt>) {
    forall j :: 0 <= j < |opts| ==> |opts[j].name| >= 2
  }

  /** The inner loop: compare one reported option with every entry in order and
      set the flag of each entry it matches. */
  function AssignOne(t: seq<OptionSpec>, o: Opt, f: map<string, FlagValue>): (r: map<string, FlagValue>)
    requires |o.name| >= 2
    ensures f.Keys <= r.Keys <= f.Keys + NameSet(t)
    ensures forall k :: k in f && k !in NameSet(t) ==> r[k] == f[k]
  {
    if |t| == 0 then f
    else
      assert NameSet(t) == {t[0].name} + NameSet(t[1..]);
      AssignOne(t[1..], o, if Matches(t[0], o) then f[t[0].name := Assigned(t[0], o)] else f)
  }

  /** The outer loop: apply every reported option in order. */
  function AssignAll(t: seq<OptionSpec>, opts: seq<Opt>, f: map<string, FlagValue>): (r: map<string, FlagValue>)
    requires WellShaped(opts)
    ensures f.Keys <= r.Keys <= f.Keys + NameSet(t)
    ensures forall k :: k in f && k !in NameSet(t) ==> r[k] == f[k]
  {
    if |opts| == 0 then f else AssignAll(t, opts[1..], AssignOne(t, opts[0], f))
  }

  // ---------------------------------------------------------------------------
  // The flag of an entry, stated directly: the last option that names it wins.

  /** The value the last option of `opts` naming `e` gives it, or `d` when no
      option names it. */
  function LastAssigned(e: OptionSpec, opts: seq<Opt>, d: FlagValue): FlagValue
    requires WellShaped(opts)
  {
    if |opts| == 0 then d
    else if Matches(e, opts[|opts| - 1]) then Assigned(e, opts[|opts| - 1])
    else LastAssigned(e, opts[..|opts| - 1], d)
  }

  /** A value that fits an entry: `True` only for a boolean option, a string only
      for an argument-taking one. */
  predicate FitsEntry(e: OptionSpec, v: FlagValue) {
    (v.Enabled? ==> e.arg == "") && (v.Str? ==> e.arg != "")
  }

  lemma {:induction false} LastAssignedAppend(e: OptionSpec, a: seq<Opt>, b: seq<Opt>, d: FlagValue)
    requires WellShaped(a) && WellShaped(b)
    ensures WellShaped(a + b)
    ensures LastAssigned(e, a + b, d) == LastAssigned(e, b, LastAssigned(e, a, d))
    decreases |b|
  {
    assert forall j :: 0 <= j < |a + b| ==> (a + b)[j] == if j < |a| then a[j] else b[j - |a|];
    if |b| == 0 {
      assert a + b == a;
    } else {
      var b' := b[..|b| - 1];
      assert (a + b)[..|a + b| - 1] == a + b';
      assert (a + b)[|a + b| - 1] == b[|b| - 1];
      LastAssignedAppend(e, a, b', d);
    }
  }

  /** The last value is the default or fits the entry. */
  lemma {:induction false} LastAssignedFits(e: OptionSpec, opts: seq<Opt>, d: FlagValue)
    requires WellShaped(opts)
    ensures LastAssigned(e, opts, d) == d || FitsEntry(e, LastAssigned(e, opts, d))
    decreases |opts|
  {
    if |opts| > 0 && !Matches(e, opts[|opts| - 1]) {
      LastAssignedFits(e, opts[..|opts| - 1], d);
    }
  }

  /** With unique names, the inner loop sets an entry's flag exactly when the
      option names it, and otherwise keeps it. */
  lemma {:induction false} AssignOneAt(t: seq<OptionSpec>, o: Opt, f: map<string, FlagValue>, i: nat)
    requires |o.name| >= 2
    requires UniqueNames(t)
    requires i < |t| && t[i].name in f
    ensures t[i].name in AssignOne(t, o, f)
    ensures AssignOne(t, o, f)[t[i].name]
            == if Matches(t[i], o) then Assigned(t[i], o) else f[t[i].name]
  {
    var f1 := if Matches(t[0], o) then f[t[0].name := Assigned(t[0], o)] else f;
    assert AssignOne(t, o, f) == AssignOne(t[1..], o, f1);
    if i == 0 {
      assert t[0].name !in NameSet(t[1..]);
    } else {
      assert t[1..][i - 1] == t[i];
      AssignOneAt(t[1..], o, f1, i - 1);
    }
  }

  /** With unique names, after the outer loop an entry's flag holds the value of
      the last option that names it, or what it held before. */
  lemma {:induction false} AssignAllAt(t: seq<OptionSpec>, opts: seq<Opt>, f: map<string, FlagValue>, i: nat)
    requires WellShaped(opts)
    requires UniqueNames(t)
    requires i < |t| && t[i].name in f
    ensures t[i].name in AssignAll(t, opts, f)
    ensures AssignAll(t, opts, f)[t[i].name] == LastAssigned(t[i], opts, f[t[i].name])
    decreases |opts|
  {
    if |opts| == 0 {
    } else {
      var f1 := AssignOne(t, opts[0], f);
      assert AssignAll(t, opts, f) == AssignAll(t, opts[1..], f1);
      AssignOneAt(t, opts[0], f, i);
      AssignAllAt(t, opts[1..], f1, i);
      LastAssignedSingle(t[i], opts[0], f[t[i].name]);
      LastAssignedCons(t[i], opts, f[t[i].name]);
    }
  }

  lemma LastAssignedSingle(e: OptionSpec, o: Opt, d: FlagValue)
    requires |o.name| >= 2
    ensures LastAssigned(e, [o], d) == if Matches(e, o) then Assigned(e, o) else d
  {
    assert [o][..0] == [];
  }

  lemma LastAssignedCons(e: OptionSpec, opts: seq<Opt>, d: FlagValue)
    requires WellShaped(opts) && |opts| > 0
    ensures WellShaped(opts[1..])
    ensures LastAssigned(e, opts, d) == LastAssigned(e, opts[1..], LastAssigned(e, [opts[0]], d))
  {
    assert [opts[0]] + opts[1..] == opts;
    LastAssignedAppend(e, [opts[0]], opts[1..], d);
  }
}

=== FILE: getopt.dfy ===
/** The argument scanner the command parser calls: Python's `getopt.getopt(args,
    shortopts, longopts)`, which follows the Utility Syntax Guidelines of POSIX
    (IEEE Std 1003.1, XBD section 12.2) with GNU-style long options:

    - `-abc` bundles short options; an argument-taking letter takes the rest of its
      token, or the next token when nothing is attached;
    - `--name=value` and `--name value` give a long option its argument;
    - `--` ends the options, and so does the first token that is not an option
      (`-` alone counts as a non-option);
    - an undeclared option, a missing argument, or an argument given to a long
      option that takes none is an error.

    Long options must be spelt out in full: unique-prefix abbreviation is not
    modelled. */
module Getopt {
  import opened Results
  import opened Text

  /** One recognised option as `getopt` reports it: `("-h", "")`, `("--file", "x")`. */
  datatype Opt = Opt(name: string, value: string)

  datatype ErrorKind = NotRecognized | RequiresArgument | MustNotHaveArgument

  /** `GetoptError`: what went wrong, whether a long option was involved, and the
      option as written without its dashes. */
  datatype GetoptError = GetoptError(kind: ErrorKind, long: bool, opt: string)

  /** A token that starts option processing: begins with `-` and is not `-` itself. */
  predicate IsOptionToken(tok: string) {
    StartsWith(tok, "-") && tok != "-"
  }

  /** `short_has_arg`: scans `shortopts` for the first occurrence of letter `c`
      (a `:` is never a letter). `None` when `c` is not declared; otherwise whether
      a `:` follows that first occurrence. */
  function ShortHasArg(c: char, shortopts: string): (r: Option<bool>)
    ensures r.Some? <==> c != ':' && c in shortopts
    ensures r.Some? ==> var k := IndexOf(shortopts, c).value;
      r.value == (k + 1 < |shortopts| && shortopts[k + 1] == ':')
  {
    if |shortopts| == 0 then None
    else if c == shortopts[0] && shortopts[0] != ':' then
      Some(|shortopts| >= 2 && shortopts[1] == ':')
    else
      assert c != ':' && c in shortopts ==> c in shortopts[1..];
      ShortHasArg(c, shortopts[1..])
  }

  /** `long_has_args` restricted to exact matches: `name` declared as itself takes no
      argument, declared as `name=` takes one. */
  function LongHasArg(name: string, longopts: seq<string>): (r: Option<bool>)
    ensures r.Some? <==> name in longopts || name + "=" in longopts
    ensures r.Some? ==> (r.value <==> name !in longopts)
  {
    if name in longopts then Some(false)
    else if name + "=" in longopts then Some(true)
    else None
  }

  /** `do_longs`: `tok` is an option token with its leading `--` removed, `args` the
      tokens after it. */
  function DoLongs(tok: string, longopts: seq<string>, args: seq<string>)
    : (r: Result<(Opt, seq<string>), GetoptError>)
    ensures r.Success? ==> IsSuffix(r.value.1, args)
  {
    var (opt, optarg) :=
      match IndexOf(tok, '=')
      case None => (tok, None)
      case Some(i) => (tok[..i], Some(tok[i + 1..]));
    match LongHasArg(opt, longopts)
    case None => Failure(GetoptError(NotRecognized, true, opt))
    case Some(hasArg) =>
      if hasArg then
        if optarg.Some? then Success((Opt("--" + opt, optarg.value), args))
        else if |args| == 0 then Failure(GetoptError(RequiresArgument, true, opt))
        else Success((Opt("--" + opt, args[0]), args[1..]))
      else if optarg.Some? then Failure(GetoptError(MustNotHaveArgument, true, opt))
      else Success((Opt("--" + opt, ""), args))
  }

  /** `do_shorts`: `letters` is a bundle of short options with its leading `-`
      removed, `args` the tokens after it. */
  function DoShorts(letters: string, shortopts: string, args: seq<string>)
    : (r: Result<(seq<Opt>, seq<string>), GetoptError>)
    ensures r.Success? ==> IsSuffix(r.value.1, args)
  {
    if |letters| == 0 then Success(([], args))
    else
      var c, more := letters[0], letters[1..];
      match ShortHasArg(c, shortopts)
      case None => Failure(GetoptError(NotRecognized, false, [c]))
      case Some(hasArg) =>
        if hasArg then
          if |more| > 0 then Success(([Opt(['-', c], more)], args))
          else if |args| == 0 then Failure(GetoptError(RequiresArgument, false, [c]))
          else Success(([Opt(['-', c], args[0])], args[1..]))
        else
          match DoShorts(more, shortopts, args)
          case Failure(e) => Failure(e)
          case Success((os, rest)) => Success(([Opt(['-', c], "")] + os, rest))
  }

  /** A short option as `getopt` reports it: a dash and one letter other than a dash. */
  predicate IsShortName(name: string) {
    |name| == 2 && name[0] == '-' && name[1] != '-'
  }

  /** A long option as `getopt` reports it: two dashes and a name without `=`. */
  predicate IsLongName(name: string) {
    |name| >= 2 && name[..2] == "--" && '=' !in name[2..]
  }

  /** Whether the option `name` is declared and takes an argument. */
  function TakesArgument(name: string, shortopts: string, longopts: seq<string>): Option<bool> {
    if IsShortName(name) then ShortHasArg(name[1], shortopts)
    else if IsLongName(name) then LongHasArg(name[2..], longopts)
    else None
  }

  /** An option `getopt` may report: its name is declared, and it carries the
      empty value unless it takes an argument. A letter `-` (reported as `--`)
      is admitted too, since `shortopts` may declare it. */
  predicate ValidOpt(o: Opt, shortopts: string, longopts: seq<string>) {
    || (&& |o.name| == 2 && o.name[0] == '-'
        && ShortHasArg(o.name[1], shortopts).Some?
        && (!ShortHasArg(o.name[1], shortopts).value ==> o.value == ""))
    || (&& IsLongName(o.name)
        && LongHasArg(o.name[2..], longopts).Some?
        && (!LongHasArg(o.name[2..], longopts).value ==> o.value == ""))
  }

  /** Scanning ended at a token that is not an option, at the end of `args`, or
      right after a `--`. */
  predicate Stopped(args: seq<string>, rest: seq<string>)
    requires IsSuffix(rest, args)
  {
    || rest == []
    || !IsOptionToken(rest[0])
    || (|rest| < |args| && args[|args| - |rest| - 1] == "--")
  }

  /** One scanning step on an option token other than `--`: `do_longs` for a
      token starting with `--`, `do_shorts` otherwise. */
  function Step(args: seq<string>, shortopts: string, longopts: seq<string>)
    : (r: Result<(seq<Opt>, seq<string>), GetoptError>)
    requires |args| > 0 && IsOptionToken(args[0]) && args[0] != "--"
    ensures r.Success? ==> IsSuffix(r.value.1, args[1..])
    ensures r.Success? ==> |r.value.1| < |args|
  {
    if StartsWith(args[0], "--") then
      match DoLongs(args[0][2..], longopts, args[1..])
      case Failure(e) => Failure(e)
      case Success((o, r)) => Success(([o], r))
    else
      DoShorts(args[0][1..], shortopts, args[1..])
  }

  /** `getopt.getopt(args, shortopts, longopts)`: the recognised options in order,
      and the remaining positional arguments. */
  function Parse(args: seq<string>, shortopts: string, longopts: seq<string>)
    : (r: Result<(seq<Opt>, seq<string>), GetoptError>)
    ensures r.Success? ==> |r.value.1| <= |args|
    ensures r.Failure? ==> |args| > 0 && IsOptionToken(args[0])
    decreases |args|
  {
    if |args| == 0 || !IsOptionToken(args[0]) then Success(([], args))
    else if args[0] == "--" then Success(([], args[1..]))
    else
      match Step(args, shortopts, longopts)
      case Failure(e) => Failure(e)
      case Success((os, r)) =>
        match Parse(r, shortopts, longopts)
        case Failure(e) => Failure(e)
        case Success((os2, rest)) => Success((os + os2, rest))
  }

  /** What a successful scan promises: every reported option is declared and
      carries the empty value when it takes no argument, and scanning stopped where the
      syntax guidelines say it must. */
  lemma ParseSound(args: seq<string>, shortopts: string, longopts: seq<string>)
    ensures var r := Parse(args, shortopts, longopts);
      r.Success? ==>
        && IsSuffix(r.value.1, args)
        && Stopped(args, r.value.1)
        && forall i :: 0 <= i < |r.value.0| ==> ValidOpt(r.value.0[i], shortopts, longopts)
  {
    ParseStops(args, shortopts, longopts);
    ParseValid(args, shortopts, longopts);
  }

  /** A successful scan leaves a suffix of its input, and stops at the end, at a
      non-option, or right after `--`. */
  lemma {:induction false} ParseStops(args: seq<string>, shortopts: string, longopts: seq<string>)
    ensures var r := Parse(args, shortopts, longopts);
      r.Success? ==> IsSuffix(r.value.1, args) && Stopped(args, r.value.1)
    decreases |args|
  {
    if |args| == 0 || !IsOptionToken(args[0]) || args[0] == "--" {
    } else {
      var st := Step(args, shortopts, longopts);
      if st.Success? {
        var (os, r) := st.value;
        SuffixTransitive(r, args[1..], args);
        ParseStops(r, shortopts, longopts);
        var p := Parse(r, shortopts, longopts);
        if p.Success? {
          var (os2, rest) := p.value;
          SuffixTransitive(rest, r, args);
          assert Parse(args, shortopts, longopts).value.1 == rest;
          if rest != [] && IsOptionToken(rest[0]) {
            assert |rest| < |r| && r[|r| - |rest| - 1] == "--";
            assert args[|args| - |r|..] == r;
            assert args[|args| - |rest| - 1] == r[|r| - |rest| - 1];
          }
        }
      }
    }
  }

  /** Every option a successful scan reports is valid. */
  lemma {:induction false} ParseValid(args: seq<string>, shortopts: string, longopts: seq<string>)
    ensures var r := Parse(args, shortopts, longopts);
      r.Success? ==> forall i :: 0 <= i < |r.value.0| ==> ValidOpt(r.value.0[i], shortopts, longopts)
    decreases |args|
  {
    if |args| == 0 || !IsOptionToken(args[0]) || args[0] == "--" {
    } else {
      var st := Step(args, shortopts, longopts);
      if st.Success? {
        StepSound(args, shortopts, longopts);
        var (os, r) := st.value;
        ParseValid(r, shortopts, longopts);
        var p := Parse(r, shortopts, longopts);
        if p.Success? {
          var (os2, rest) := p.value;
          assert Parse(args, shortopts, longopts).value.0 == os + os2;
          forall i | 0 <= i < |os + os2|
            ensures ValidOpt((os + os2)[i], shortopts, longopts)
          {
            if i < |os| {
              assert (os + os2)[i] == os[i];
            } else {
              assert (os + os2)[i] == os2[i - |os|];
            }
          }
        }
      }
    }
  }

  /** The options one scanning step reports are all valid. */
  lemma StepSound(args: seq<string>, shortopts: string, longopts: seq<string>)
    requires |args| > 0 && IsOptionToken(args[0]) && args[0] != "--"
    ensures var r := Step(args, shortopts, longopts);
      r.Success? ==> forall i :: 0 <= i < |r.value.0| ==> ValidOpt(r.value.0[i], shortopts, longopts)
  {
    if StartsWith(args[0], "--") {
      DoLongsValid(args[0][2..], longopts, args[1..], shortopts);
    } else {
      DoShortsValid(args[0][1..], shortopts, args[1..], longopts);
    }
  }

  lemma DoLongsValid(tok: string, longopts: seq<string>, args: seq<string>, shortopts: string)
    ensures DoLongs(tok, longopts, args).Success? ==>
      ValidOpt(DoLongs(tok, longopts, args).value.0, shortopts, longopts)
  {
    var r := DoLongs(tok, longopts, args);
    if r.Success? {
      var opt := match IndexOf(tok, '=') case None => tok case Some(i) => tok[..i];
      assert '=' !in opt;
      assert r.value.0.name == "--" + opt;
      assert ("--" + opt)[2..] == opt;
      assert LongHasArg(opt, longopts).Some?;
    }
  }

  lemma {:induction false} DoShortsValid(letters: string, shortopts: string, args: seq<string>, longopts: seq<string>)
    ensures DoShorts(letters, shortopts, args).Success? ==>
      forall i :: 0 <= i < |DoShorts(letters, shortopts, args).value.0| ==>
        ValidOpt(DoShorts(letters, shortopts, args).value.0[i], shortopts, longopts)
    decreases |letters|
  {
    if |letters| > 0 {
      DoShortsValid(letters[1..], shortopts, args, longopts);
    }
  }

  // ---------------------------------------------------------------------------
  // Writing options back as tokens, and reading them again.

  /** An option name that can be written as a token of its own: a letter other
      than `-`, or a non-empty long name (`--` alone ends the options). */
  predicate Spellable(name: string) {
    IsShortName(name) || (IsLongName(name) && |name| > 2)
  }

  /** An option that has exactly one spelling as tokens: a declared letter other
      than `-`, or a declared non-empty long name. */
  predicate Encodable(o: Opt, shortopts: string, longopts: seq<string>) {
    && Spellable(o.name)
    && TakesArgument(o.name, shortopts, longopts).Some?
    && (!TakesArgument(o.name, shortopts, longopts).value ==> o.value == "")
  }

  /** The tokens of one option: its name, and its value as a separate token when
      it takes an argument. */
  function EncodeOpt(o: Opt, shortopts: string, longopts: seq<string>): seq<string>
    requires Encodable(o, shortopts, longopts)
  {
    if TakesArgument(o.name, shortopts, longopts).value then [o.name, o.value] else [o.name]
  }

  function Encode(opts: seq<Opt>, shortopts: string, longopts: seq<string>): seq<string>
    requires forall i :: 0 <= i < |opts| ==> Encodable(opts[i], shortopts, longopts)
  {
    if |opts| == 0 then [] else EncodeOpt(opts[0], shortopts, longopts) + Encode(opts[1..], shortopts, longopts)
  }

  /** Unfolds `Parse` once on a token that `Step` scans successfully. */
  lemma ParseAfterStep(args: seq<string>, os: seq<Opt>, r: seq<string>, shortopts: string, longopts: seq<string>)
    requires |args| > 0 && IsOptionToken(args[0]) && args[0] != "--"
    requires Step(args, shortopts, longopts) == Success((os, r))
    ensures Parse(args, shortopts, longopts) == match Parse(r, shortopts, longopts)
      case Failure(e) => Failure(e)
      case Success((os2, rest)) => Success((os + os2, rest))
  {
  }

  lemma ParseAfterStepOk(args: seq<string>, os: seq<Opt>, r: seq<string>, os2: seq<Opt>, rest: seq<string>,
                         shortopts: string, longopts: seq<string>)
    requires |args| > 0 && IsOptionToken(args[0]) && args[0] != "--"
    requires Step(args, shortopts, longopts) == Success((os, r))
    requires Parse(r, shortopts, longopts) == Success((os2, rest))
    ensures Parse(args, shortopts, longopts) == Success((os + os2, rest))
  {
  }

  lemma ParseAfterStepErr(args: seq<string>, os: seq<Opt>, r: seq<string>, e: GetoptError,
                          shortopts: string, longopts: seq<string>)
    requires |args| > 0 && IsOptionToken(args[0]) && args[0] != "--"
    requires Step(args, shortopts, longopts) == Success((os, r))
    requires Parse(r, shortopts, longopts) == Failure(e)
    ensures Parse(args, shortopts, longopts) == Failure(e)
  {
  }

  /** The tokens of one encodable option are scanned back to that option. */
  lemma StepEncodeOpt(o: Opt, x: seq<string>, shortopts: string, longopts: seq<string>)
    requires Encodable(o, shortopts, longopts)
    ensures var args := EncodeOpt(o, shortopts, longopts) + x;
      && IsOptionToken(args[0]) && args[0] != "--"
      && Step(args, shortopts, longopts) == Success(([o], x))
  {
    var args := EncodeOpt(o, shortopts, longopts) + x;
    var takes := TakesArgument(o.name, shortopts, longopts).value;
    var after := if takes then [o.value] + x else x;
    assert args == [o.name] + after;
    assert args[0] == o.name && args[1..] == after;
    if IsShortName(o.name) {
      var c := o.name[1];
      assert o.name == ['-', c];
      assert o.name[1..] == [c];
      assert !StartsWith(o.name, "--");
      assert [c][0] == c && [c][1..] == [];
      if takes {
        assert after[0] == o.value && after[1..] == x;
        assert DoShorts([c], shortopts, after) == Success(([Opt(['-', c], o.value)], x));
      } else {
        assert DoShorts([], shortopts, after) == Success(([], x));
        assert DoShorts([c], shortopts, after) == Success(([Opt(['-', c], "")] + [], x));
        assert [Opt(['-', c], "")] + [] == [o];
      }
      assert DoShorts([c], shortopts, after) == Success(([o], x));
      assert Step(args, shortopts, longopts) == DoShorts([c], shortopts, after);
    } else {
      var n := o.name[2..];
      assert o.name == "--" + n;
      assert StartsWith(o.name, "--");
      assert IndexOf(n, '=').None?;
      assert DoLongs(n, longopts, after) == Success((o, x));
    }
  }

  lemma ParseEncodedOpt(o: Opt, x: seq<string>, more: seq<Opt>, rest: seq<string>,
                        shortopts: string, longopts: seq<string>)
    requires Encodable(o, shortopts, longopts)
    requires Parse(x, shortopts, longopts) == Success((more, rest))
    ensures Parse(EncodeOpt(o, shortopts, longopts) + x, shortopts, longopts) == Success(([o] + more, rest))
  {
    var args := EncodeOpt(o, shortopts, longopts) + x;
    StepEncodeOpt(o, x, shortopts, longopts);
    ParseAfterStep(args, [o], x, shortopts, longopts);
  }

  /** Scanning the tokens of `opts` followed by a tail that yields no options gives
      back exactly `opts` and the tail's positional arguments. */
  lemma {:induction false} EncodeThenParse(opts: seq<Opt>, tail: seq<string>, rest: seq<string>,
                                           shortopts: string, longopts: seq<string>)
    requires forall i :: 0 <= i < |opts| ==> Encodable(opts[i], shortopts, longopts)
    requires Parse(tail, shortopts, longopts) == Success(([], rest))
    ensures Parse(Encode(opts, shortopts, longopts) + tail, shortopts, longopts) == Success((opts, rest))
  {
    if |opts| == 0 {
      assert Encode(opts, shortopts, longopts) + tail == tail;
    } else {
      EncodeThenParse(opts[1..], tail, rest, shortopts, longopts);
      EncodeCons(opts, tail, shortopts, longopts);
      ParseEncodedOpt(opts[0], Encode(opts[1..], shortopts, longopts) + tail, opts[1..], rest, shortopts, longopts);
    }
  }

  lemma EncodeCons(opts: seq<Opt>, tail: seq<string>, shortopts: string, longopts: seq<string>)
    requires |opts| > 0
    requires forall i :: 0 <= i < |opts| ==> Encodable(opts[i], shortopts, longopts)
    ensures Encode(opts, shortopts, longopts) + tail
            == EncodeOpt(opts[0], shortopts, longopts) + (Encode(opts[1..], shortopts, longopts) + tail)
    ensures [opts[0]] + opts[1..] == opts
  {
  }

  /** Round trip: options written back as tokens and then `--` and arbitrary
      positional arguments scan back to the same options and arguments. */
  lemma RoundTrip(opts: seq<Opt>, rest: seq<string>, shortopts: string, longopts: seq<string>)
    requires forall i :: 0 <= i < |opts| ==> Encodable(opts[i], shortopts, longopts)
    ensures Parse(Encode(opts, shortopts, longopts) + (["--"] + rest), shortopts, longopts)
            == Success((opts, rest))
  {
    assert Parse(["--"] + rest, shortopts, longopts) == Success(([], rest));
    EncodeThenParse(opts, ["--"] + rest, rest, shortopts, longopts);
  }

  /** Round trip without a terminator: scanning stops by itself at the first
      positional argument. */
  lemma RoundTripStops(opts: seq<Opt>, rest: seq<string>, shortopts: string, longopts: seq<string>)
    requires forall i :: 0 <= i < |opts| ==> Encodable(opts[i], shortopts, longopts)
    requires rest == [] || !IsOptionToken(rest[0])
    ensures Parse(Encode(opts, shortopts, longopts) + rest, shortopts, longopts) == Success((opts, rest))
  {
    EncodeThenParse(opts, rest, rest, shortopts, longopts);
  }

  // ---------------------------------------------------------------------------
  // The spellings the syntax guidelines treat as equivalent.

  /** The scanning steps on the two spellings of a bundle. */
  lemma BundleSteps(a: char, bs: string, tail: seq<string>, shortopts: string, longopts: seq<string>)
    requires a != '-' && ShortHasArg(a, shortopts) == Some(false)
    requires |bs| > 0 && bs[0] != '-'
    ensures IsOptionToken(['-', a] + bs) && ['-', a] + bs != "--"
    ensures IsOptionToken(['-', a]) && ['-', a] != "--"
    ensures IsOptionToken(['-'] + bs) && ['-'] + bs != "--"
    ensures Step([['-', a] + bs] + tail, shortopts, longopts)
            == match DoShorts(bs, shortopts, tail)
               case Failure(e) => Failure(e)
               case Success((os, r)) => Success(([Opt(['-', a], "")] + os, r))
    ensures Step([['-', a], ['-'] + bs] + tail, shortopts, longopts)
            == Success(([Opt(['-', a], "")], [['-'] + bs] + tail))
    ensures Step([['-'] + bs] + tail, shortopts, longopts) == DoShorts(bs, shortopts, tail)
  {
    var lhs := [['-', a] + bs] + tail;
    var rhs := [['-', a], ['-'] + bs] + tail;
    var mid := [['-'] + bs] + tail;
    assert !StartsWith(['-', a] + bs, "--") && !StartsWith(['-', a], "--");
    assert !StartsWith(['-'] + bs, "--");
    assert lhs[0][1..] == [a] + bs && ([a] + bs)[1..] == bs && lhs[1..] == tail;
    assert rhs[0][1..] == [a] && [a][1..] == [] && rhs[1..] == mid;
    assert mid[0][1..] == bs && mid[1..] == tail;
    assert DoShorts([], shortopts, mid) == Success(([], mid));
    assert [Opt(['-', a], "")] + [] == [Opt(['-', a], "")];
  }

  /** `-ab...` with `a` a boolean letter scans like `-a -b...`. */
  lemma BundledShorts(a: char, bs: string, tail: seq<string>, shortopts: string, longopts: seq<string>)
    requires a != '-' && ShortHasArg(a, shortopts) == Some(false)
    requires |bs| > 0 && bs[0] != '-'
    ensures Parse([['-', a] + bs] + tail, shortopts, longopts)
            == Parse([['-', a], ['-'] + bs] + tail, shortopts, longopts)
  {
    BundleSteps(a, bs, tail, shortopts, longopts);
    var st := DoShorts(bs, shortopts, tail);
    if st.Failure? {
      BundledFailure(a, bs, tail, shortopts, longopts);
    } else {
      BundledSuccess(a, bs, tail, st.value.0, st.value.1, shortopts, longopts);
    }
  }

  lemma BundledFailure(a: char, bs: string, tail: seq<string>, shortopts: string, longopts: seq<string>)
    requires a != '-' && ShortHasArg(a, shortopts) == Some(false)
    requires |bs| > 0 && bs[0] != '-'
    requires DoShorts(bs, shortopts, tail).Failure?
    ensures Parse([['-', a] + bs] + tail, shortopts, longopts)
            == Parse([['-', a], ['-'] + bs] + tail, shortopts, longopts)
  {
    var rhs := [['-', a], ['-'] + bs] + tail;
    var mid := [['-'] + bs] + tail;
    BundleSteps(a, bs, tail, shortopts, longopts);
    assert Parse(mid, shortopts, longopts) == Failure(DoShorts(bs, shortopts, tail).error);
    ParseAfterStep(rhs, [Opt(['-', a], "")], mid, shortopts, longopts);
  }

  lemma BundledSuccess(a: char, bs: string, tail: seq<string>, os: seq<Opt>, r: seq<string>,
                       shortopts: string, longopts: seq<string>)
    requires a != '-' && ShortHasArg(a, shortopts) == Some(false)
    requires |bs| > 0 && bs[0] != '-'
    requires DoShorts(bs, shortopts, tail) == Success((os, r))
    ensures Parse([['-', a] + bs] + tail, shortopts, longopts)
            == Parse([['-', a], ['-'] + bs] + tail, shortopts, longopts)
  {
    BundleSteps(a, bs, tail, shortopts, longopts);
    var p := Parse(r, shortopts, longopts);
    if p.Failure? {
      BundledThenFailure(a, bs, tail, os, r, p.error, shortopts, longopts);
    } else {
      BundledThenSuccess(a, bs, tail, os, r, p.value.0, p.value.1, shortopts, longopts);
      ConcatAssoc([Opt(['-', a], "")], os, p.value.0);
    }
  }

  lemma BundledThenFailure(a: char, bs: string, tail: seq<string>, os: seq<Opt>, r: seq<string>, e: GetoptError,
                           shortopts: string, longopts: seq<string>)
    requires a != '-' && ShortHasArg(a, shortopts) == Some(false)
    requires |bs| > 0 && bs[0] != '-'
    requires DoShorts(bs, shortopts, tail) == Success((os, r))
    requires Parse(r, shortopts, longopts) == Failure(e)
    ensures Parse([['-', a] + bs] + tail, shortopts, longopts) == Failure(e)
    ensures Parse([['-', a], ['-'] + bs] + tail, shortopts, longopts) == Failure(e)
  {
    var o := Opt(['-', a], "");
    var mid := [['-'] + bs] + tail;
    BundleSteps(a, bs, tail, shortopts, longopts);
    ParseAfterStepErr([['-', a] + bs] + tail, [o] + os, r, e, shortopts, longopts);
    ParseAfterStepErr(mid, os, r, e, shortopts, longopts);
    ParseAfterStepErr([['-', a], ['-'] + bs] + tail, [o], mid, e, shortopts, longopts);
  }

  lemma BundledThenSuccess(a: char, bs: string, tail: seq<string>, os: seq<Opt>, r: seq<string>,
                           os2: seq<Opt>, rest: seq<string>, shortopts: string, longopts: seq<string>)
    requires a != '-' && ShortHasArg(a, shortopts) == Some(false)
    requires |bs| > 0 && bs[0] != '-'
    requires DoShorts(bs, shortopts, tail) == Success((os, r))
    requires Parse(r, shortopts, longopts) == Success((os2, rest))
    ensures Parse([['-', a] + bs] + tail, shortopts, longopts) == Success((([Opt(['-', a], "")] + os) + os2, rest))
    ensures Parse([['-', a], ['-'] + bs] + tail, shortopts, longopts) == Success(([Opt(['-', a], "")] + (os + os2), rest))
  {
    var o := Opt(['-', a], "");
    var mid := [['-'] + bs] + tail;
    BundleSteps(a, bs, tail, shortopts, longopts);
    ParseAfterStepOk([['-', a] + bs] + tail, [o] + os, r, os2, rest, shortopts, longopts);
    ParseAfterStepOk(mid, os, r, os2, rest, shortopts, longopts);
    ParseAfterStepOk([['-', a], ['-'] + bs] + tail, [o], mid, os + os2, rest, shortopts, longopts);
  }

  /** Scanning stops at a positional argument and returns it with all after it. */
  lemma PositionalStops(x: string, tail: seq<string>, shortopts: string, longopts: seq<string>)
    requires !IsOptionToken(x)
    ensures Parse([x] + tail, shortopts, longopts) == Success(([], [x] + tail))
  {
  }

  /** An argument attached to its letter, `-fvalue`, scans like `-f value`. */
  lemma AttachedShortArgument(c: char, v: string, tail: seq<string>, shortopts: string, longopts: seq<string>)
    requires c != '-' && ShortHasArg(c, shortopts) == Some(true)
    requires v != ""
    ensures Parse([['-', c] + v] + tail, shortopts, longopts)
            == Parse([['-', c], v] + tail, shortopts, longopts)
  {
    var lhs := [['-', c] + v] + tail;
    var rhs := [['-', c], v] + tail;
    assert lhs[0][1..] == [c] + v;
    assert ([c] + v)[1..] == v;
    assert lhs[1..] == tail;
    assert rhs[0][1..] == [c];
    assert rhs[1..] == [v] + tail;
  }

  /** `--name=value` scans like `--name value`. */
  lemma AttachedLongArgument(n: string, v: string, tail: seq<string>, shortopts: string, longopts: seq<string>)
    requires n != "" && '=' !in n && LongHasArg(n, longopts) == Some(true)
    ensures Parse(["--" + n + "=" + v] + tail, shortopts, longopts)
            == Parse(["--" + n, v] + tail, shortopts, longopts)
  {
    var a := ["--" + n + "=" + v] + tail;
    var b := ["--" + n, v] + tail;
    var o := Opt("--" + n, v);
    LongStepAttached(n, v, tail, shortopts, longopts);
    LongStepSeparate(n, v, tail, shortopts, longopts);
    ParseAfterStep(a, [o], tail, shortopts, longopts);
    ParseAfterStep(b, [o], tail, shortopts, longopts);
  }

  lemma LongStepAttached(n: string, v: string, tail: seq<string>, shortopts: string, longopts: seq<string>)
    requires n != "" && '=' !in n && LongHasArg(n, longopts) == Some(true)
    ensures var a := ["--" + n + "=" + v] + tail;
      IsOptionToken(a[0]) && a[0] != "--"
      && Step(a, shortopts, longopts) == Success(([Opt("--" + n, v)], tail))
  {
    var tok := n + "=" + v;
    var a := ["--" + tok] + tail;
    ConcatAssoc("--", n + "=", v);
    ConcatAssoc("--", n, "=");
    assert a == ["--" + n + "=" + v] + tail;
    DoubleDash(tok);
    EqualsSplit(n, v);
    assert a[1..] == tail;
  }

  lemma LongStepSeparate(n: string, v: string, tail: seq<string>, shortopts: string, longopts: seq<string>)
    requires n != "" && '=' !in n && LongHasArg(n, longopts) == Some(true)
    ensures var b := ["--" + n, v] + tail;
      IsOptionToken(b[0]) && b[0] != "--"
      && Step(b, shortopts, longopts) == Success(([Opt("--" + n, v)], tail))
  {
    var b := ["--" + n, v] + tail;
    DoubleDash(n);
    EqualsSplit(n, v);
    assert b[1..] == [v] + tail;
  }

  /** A long-option token: `--` and the text after it. */
  lemma DoubleDash(s: string)
    requires s != ""
    ensures IsOptionToken("--" + s) && "--" + s != "--" && StartsWith("--" + s, "--")
    ensures ("--" + s)[2..] == s
  {
    assert ("--" + s)[..2] == "--";
  }

  /** `name=value` splits at its first `=` when the name has none. */
  lemma EqualsSplit(n: string, v: string)
    requires '=' !in n
    ensures IndexOf(n + "=" + v, '=') == Some(|n|)
    ensures (n + "=" + v)[..|n|] == n && (n + "=" + v)[|n| + 1..] == v
    ensures IndexOf(n, '=').None?
  {
    var tok := n + "=" + v;
    assert tok[|n|] == '=';
    assert tok[..|n|] == n;
  }

  // ---------------------------------------------------------------------------
  // Errors.

  /** An undeclared long option fails the whole scan, whatever follows it. */
  lemma UnknownLongOption(n: string, tail: seq<string>, shortopts: string, longopts: seq<string>)
    requires n != "" && '=' !in n && LongHasArg(n, longopts).None?
    ensures Parse(["--" + n] + tail, shortopts, longopts) == Failure(GetoptError(NotRecognized, true, n))
  {
    assert ("--" + n)[2..] == n;
    assert IndexOf(n, '=').None?;
  }

  /** An undeclared short letter fails the whole scan, whatever follows it. */
  lemma UnknownShortOption(c: char, tail: seq<string>, shortopts: string, longopts: seq<string>)
    requires c != '-' && ShortHasArg(c, shortopts).None?
    ensures Parse([['-', c]] + tail, shortopts, longopts) == Failure(GetoptError(NotRecognized, false, [c]))
  {
    assert ['-', c][1..] == [c];
  }

  /** An argument-taking option at the very end has no argument to take. */
  lemma MissingArgument(name: string, shortopts: string, longopts: seq<string>)
    requires Spellable(name)
    requires TakesArgument(name, shortopts, longopts) == Some(true)
    ensures Parse([name], shortopts, longopts) == Failure(GetoptError(RequiresArgument, !IsShortName(name), name[if IsShortName(name) then 1 else 2..]))
  {
    var args := [name];
    assert args[1..] == [];
    if IsShortName(name) {
      assert !StartsWith(name, "--");
      assert name[1..] == [name[1]] && [name[1]][1..] == [];
      assert DoShorts(name[1..], shortopts, []) == Failure(GetoptError(RequiresArgument, false, name[1..]));
    } else {
      assert StartsWith(name, "--");
      assert IndexOf(name[2..], '=').None?;
      assert DoLongs(name[2..], longopts, []) == Failure(GetoptError(RequiresArgument, true, name[2..]));
    }
  }
}

=== FILE: option_table.dfy ===
/** The declared options of a command (`optionList`) and the two option
    specifications built from them for the argument scanner. */
module OptionTable {
  import opened Results
  import opened Text
  import opened Getopt

  /** One entry `(name, (short, arg, help))` of `optionList`. The constructor tests
      the short letter and the placeholder only for truth, so `False` and `''` are both
      the empty string here: an empty `arg` marks a boolean option, an empty
      `short` an option with no short form. */
  datatype OptionSpec = OptionSpec(name: string, short: string, arg: string, help: string)

  /** The declared long names. */
  function NameSet(t: seq<OptionSpec>): set<string> {
    set i | 0 <= i < |t| :: t[i].name
  }

  /** No long name is declared twice (the constructor folds the table into an
      `OrderedDict`, which would merge duplicates). */
  predicate UniqueNames(t: seq<OptionSpec>) {
    forall i, j :: 0 <= i < j < |t| ==> t[i].name != t[j].name
  }

  /** An entry the argument scanner can reach under both spellings: a non-empty
      long name without `=`, and a short form that is empty or one letter other
      than the scanner's `:` and `-`. */
  predicate ValidEntry(e: OptionSpec) {
    && e.name != "" && '=' !in e.name
    && |e.short| <= 1 && e.short != ":" && e.short != "-"
  }

  /** What the long options need: every long name non-empty, declared once and
      free of `=`. Short forms may be shared or longer than one letter. */
  predicate LongNamesPlain(t: seq<OptionSpec>) {
    && UniqueNames(t)
    && (forall i :: 0 <= i < |t| ==> t[i].name != "" && '=' !in t[i].name)
  }

  /** What `shortopts` needs from an entry: a short form of at most one letter,
      and not the `:` that marks an argument. */
  predicate ShortFormLetter(e: OptionSpec) {
    |e.short| <= 1 && e.short != ":"
  }

  /** A table whose options parse unambiguously. */
  predicate WellFormed(t: seq<OptionSpec>) {
    && (forall i :: 0 <= i < |t| ==> ValidEntry(t[i]))
    && UniqueNames(t)
    && (forall i, j :: 0 <= i < j < |t| && t[i].short != "" ==> t[i].short != t[j].short)
  }

  /** The first entry with long name `n`. */
  function EntryByName(t: seq<OptionSpec>, n: string): (r: Option<nat>)
    ensures r.Some? ==> r.value < |t| && t[r.value].name == n
    ensures r.None? <==> n !in NameSet(t)
  {
    if |t| == 0 then None
    else if t[0].name == n then Some(0)
    else match EntryByName(t[1..], n)
      case None =>
        assert NameSet(t) == {t[0].name} + NameSet(t[1..]);
        None
      case Some(i) => Some(i + 1)
  }

  /** The first entry with short letter `c`. */
  function EntryByShort(t: seq<OptionSpec>, c: char): (r: Option<nat>)
    ensures r.Some? ==> r.value < |t| && t[r.value].short == [c]
    ensures r.Some? ==> forall j :: 0 <= j < r.value ==> t[j].short != [c]
    ensures r.None? ==> forall j :: 0 <= j < |t| ==> t[j].short != [c]
  {
    if |t| == 0 then None
    else if t[0].short == [c] then Some(0)
    else match EntryByShort(t[1..], c)
      case None => None
      case Some(i) => Some(i + 1)
  }

  /** What one entry adds to `shortopts`: its letter, and `:` after it when the
      option takes an argument. */
  function ShortSpec(e: OptionSpec): string {
    if e.short == "" then "" else if e.arg != "" then e.short + ":" else e.short
  }

  /** The `shortopts` string, in declaration order. */
  function ShortOpts(t: seq<OptionSpec>): string {
    if |t| == 0 then "" else ShortSpec(t[0]) + ShortOpts(t[1..])
  }

  /** What one entry adds to `longopts`: its name, and `=` after it when the
      option takes an argument. */
  function LongSpec(e: OptionSpec): string {
    if e.arg != "" then e.name + "=" else e.name
  }

  /** The `longopts` list: one element per entry, in declaration order, each the
      entry's name with `=` appended exactly when it takes an argument. */
  function LongOpts(t: seq<OptionSpec>): (r: seq<string>)
    ensures |r| == |t|
    ensures forall i :: 0 <= i < |t| ==> StartsWith(r[i], t[i].name)
    ensures forall i :: 0 <= i < |t| ==> |r[i]| == |t[i].name| + (if t[i].arg != "" then 1 else 0)
    ensures forall i :: 0 <= i < |t| && t[i].arg != "" ==> r[i][|t[i].name|] == '='
  {
    if |t| == 0 then [] else [LongSpec(t[0])] + LongOpts(t[1..])
  }

  // ---------------------------------------------------------------------------
  // `OrderedDict(optionList)`: one entry per long name.

  /** The entry declared under `n`, if any. */
  function Lookup(t: seq<OptionSpec>, n: string): (r: Option<OptionSpec>)
    ensures r.None? <==> n !in NameSet(t)
    ensures r.Some? ==> r.value.name == n && r.value in t
  {
    match EntryByName(t, n)
    case None => None
    case Some(i) => Some(t[i])
  }

  /** The last entry of `t` named `n`, if any. */
  function LastNamed(t: seq<OptionSpec>, n: string): (r: Option<OptionSpec>)
    ensures r.None? <==> n !in NameSet(t)
    ensures r.Some? ==> exists i :: 0 <= i < |t| && t[i] == r.value && t[i].name == n
                                     && (forall j :: i < j < |t| ==> t[j].name != n)
  {
    if |t| == 0 then None
    else
      assert NameSet(t) == {t[0].name} + NameSet(t[1..]);
      match LastNamed(t[1..], n)
      case Some(e) =>
        var k :| 0 <= k < |t[1..]| && t[1..][k] == e && t[1..][k].name == n
                 && forall j :: k < j < |t[1..]| ==> t[1..][j].name != n;
        assert t[k + 1] == e && forall j :: k + 1 < j < |t| ==> t[j] == t[1..][j - 1];
        Some(e)
      case None =>
        assert forall j :: 0 < j < |t| ==> t[j].name in NameSet(t[1..]);
        if t[0].name == n then Some(t[0]) else None
  }

  /** Setting key `e.name` of an ordered dict: replace the value in place when the
      key is present, append otherwise. */
  function Insert(acc: seq<OptionSpec>, e: OptionSpec): (r: seq<OptionSpec>)
    requires UniqueNames(acc)
    ensures UniqueNames(r)
    ensures NameSet(r) == NameSet(acc) + {e.name}
    ensures |r| == |acc| + (if e.name in NameSet(acc) then 0 else 1)
  {
    match EntryByName(acc, e.name)
    case Some(i) =>
      assert forall j :: 0 <= j < |acc| ==> acc[i := e][j].name == acc[j].name;
      acc[i := e]
    case None =>
      assert forall j :: 0 <= j < |acc| ==> acc[j].name in NameSet(acc);
      assert forall j :: 0 <= j < |acc| ==> (acc + [e])[j] == acc[j];
      assert (acc + [e])[|acc|] == e;
      acc + [e]
  }

  function DedupFrom(acc: seq<OptionSpec>, t: seq<OptionSpec>): (r: seq<OptionSpec>)
    requires UniqueNames(acc)
    decreases |t|
    ensures UniqueNames(r)
    ensures NameSet(r) == NameSet(acc) + NameSet(t)
  {
    if |t| == 0 then acc
    else
      assert NameSet(t) == {t[0].name} + NameSet(t[1..]);
      DedupFrom(Insert(acc, t[0]), t[1..])
  }

  /** The table as `OrderedDict` holds it: the first position of each name, with
      the last entry declared under that name. */
  function Dedup(t: seq<OptionSpec>): (r: seq<OptionSpec>)
    ensures UniqueNames(r)
    ensures NameSet(r) == NameSet(t)
    ensures |r| <= |t|
  {
    DedupLength([], t);
    DedupFrom([], t)
  }

  lemma {:induction false} DedupLength(acc: seq<OptionSpec>, t: seq<OptionSpec>)
    requires UniqueNames(acc)
    decreases |t|
    ensures |DedupFrom(acc, t)| <= |acc| + |t|
  {
    if |t| > 0 {
      DedupLength(Insert(acc, t[0]), t[1..]);
    }
  }

  /** In a table without duplicates, each entry is found under its own name. */
  lemma LookupAt(t: seq<OptionSpec>, k: nat)
    requires UniqueNames(t) && k < |t|
    ensures Lookup(t, t[k].name) == Some(t[k])
  {
    assert t[k].name in NameSet(t);
  }

  /** Setting a key changes the lookup of that key only. */
  lemma InsertLookup(acc: seq<OptionSpec>, e: OptionSpec, n: string)
    requires UniqueNames(acc)
    ensures Lookup(Insert(acc, e), n) == if e.name == n then Some(e) else Lookup(acc, n)
  {
    var r := Insert(acc, e);
    if e.name == n {
      var k :| 0 <= k < |r| && r[k].name == n;
      if EntryByName(acc, e.name).None? {
        assert r[|acc|] == e;
        LookupAt(r, |acc|);
      } else {
        LookupAt(r, EntryByName(acc, e.name).value);
      }
    } else if n in NameSet(acc) {
      var k :| 0 <= k < |acc| && acc[k].name == n;
      LookupAt(acc, k);
      assert r[k] == acc[k];
      LookupAt(r, k);
    }
  }

  lemma {:induction false} DedupFromLastWins(acc: seq<OptionSpec>, t: seq<OptionSpec>, n: string)
    requires UniqueNames(acc)
    decreases |t|
    ensures Lookup(DedupFrom(acc, t), n) == match LastNamed(t, n)
      case Some(e) => Some(e)
      case None => Lookup(acc, n)
  {
    if |t| > 0 {
      DedupFromLastWins(Insert(acc, t[0]), t[1..], n);
      InsertLookup(acc, t[0], n);
    }
  }

  /** The entry kept under each name is the last one declared under it. */
  lemma DedupLastWins(t: seq<OptionSpec>, n: string)
    ensures Lookup(Dedup(t), n) == LastNamed(t, n)
  {
    DedupFromLastWins([], t, n);
  }

  lemma {:induction false} DedupFromUnique(acc: seq<OptionSpec>, t: seq<OptionSpec>)
    requires UniqueNames(acc + t)
    ensures UniqueNames(acc)
    ensures DedupFrom(acc, t) == acc + t
    decreases |t|
  {
    assert forall j :: 0 <= j < |acc| ==> (acc + t)[j] == acc[j];
    if |t| > 0 {
      var acc' := acc + [t[0]];
      assert acc + t == acc' + t[1..];
      assert t[0].name !in NameSet(acc) by {
        assert forall j :: 0 <= j < |acc| ==> acc[j].name == (acc + t)[j].name != (acc + t)[|acc|].name;
      }
      assert Insert(acc, t[0]) == acc';
      DedupFromUnique(acc', t[1..]);
    }
  }

  /** A table without duplicate names is kept as it is. */
  lemma DedupUnique(t: seq<OptionSpec>)
    requires UniqueNames(t)
    ensures Dedup(t) == t
  {
    assert [] + t == t;
    DedupFromUnique([], t);
  }

  // ---------------------------------------------------------------------------
  // What the scanner reads back from the two specifications.

  /** The built `shortopts` never starts with `:`. */
  lemma {:induction false} ShortOptsHead(t: seq<OptionSpec>)
    requires forall i :: 0 <= i < |t| ==> ShortFormLetter(t[i])
    ensures ShortOpts(t) == "" || ShortOpts(t)[0] != ':'
  {
    if |t| > 0 {
      ShortOptsHead(t[1..]);
      if t[0].short == "" {
        assert ShortOpts(t) == ShortOpts(t[1..]);
      } else {
        assert ShortOpts(t)[0] == t[0].short[0];
      }
    }
  }

  /** `shortopts` is empty exactly when no entry has a short form. */
  lemma {:induction false} ShortOptsEmpty(t: seq<OptionSpec>)
    ensures ShortOpts(t) == "" <==> forall i :: 0 <= i < |t| ==> t[i].short == ""
  {
    if |t| > 0 {
      ShortOptsEmpty(t[1..]);
      assert forall i :: 0 < i < |t| ==> t[i] == t[1..][i - 1];
    }
  }

  /** Looking a letter up in text that starts with a different letter skips it. */
  lemma ShortHasArgSkip(c: char, d: char, tail: string)
    requires c != d && d != ':'
    ensures ShortHasArg(c, [d] + tail) == ShortHasArg(c, tail)
    ensures ShortHasArg(c, [d, ':'] + tail) == ShortHasArg(c, tail)
  {
    assert ([d] + tail)[1..] == tail;
    assert ([d, ':'] + tail)[1..] == [':'] + tail;
    assert ([':'] + tail)[1..] == tail;
  }

  /** Looking a letter up in text that starts with it reads the `:` after it. */
  lemma ShortHasArgHit(c: char, tail: string)
    requires c != ':' && (tail == "" || tail[0] != ':')
    ensures ShortHasArg(c, [c] + tail) == Some(false)
    ensures ShortHasArg(c, [c, ':'] + tail) == Some(true)
  {
    assert ([c] + tail)[0] == c;
    assert ([c, ':'] + tail)[0] == c && ([c, ':'] + tail)[1] == ':';
  }

  /** Looking a letter up behind one entry's contribution to `shortopts`. */
  lemma ShortSpecLookup(e: OptionSpec, c: char, rest: string)
    requires ShortFormLetter(e)
    requires rest == "" || rest[0] != ':'
    ensures ShortHasArg(c, ShortSpec(e) + rest)
            == if e.short == [c] then Some(e.arg != "") else ShortHasArg(c, rest)
  {
    if e.short == "" {
      assert ShortSpec(e) + rest == rest;
    } else {
      var d := e.short[0];
      assert e.short == [d];
      if e.arg != "" {
        assert ShortSpec(e) + rest == [d, ':'] + rest;
      } else {
        assert ShortSpec(e) + rest == [d] + rest;
      }
      if d == c {
        ShortHasArgHit(c, rest);
      } else {
        ShortHasArgSkip(c, d, rest);
      }
    }
  }

  /** The scanner finds a letter in the built `shortopts` exactly when some entry
      declares it, and takes an argument for it exactly when the first such entry
      has a placeholder. */
  lemma {:induction false} ShortOptsLookup(t: seq<OptionSpec>, c: char)
    requires forall i :: 0 <= i < |t| ==> ShortFormLetter(t[i])
    ensures ShortHasArg(c, ShortOpts(t)) == match EntryByShort(t, c)
      case None => None
      case Some(i) => Some(t[i].arg != "")
  {
    if |t| > 0 {
      ShortOptsLookup(t[1..], c);
      ShortOptsHead(t[1..]);
      ShortSpecLookup(t[0], c, ShortOpts(t[1..]));
    }
  }

  /** A name without `=` is in `longopts` exactly when an entry of that name
      takes no argument. */
  lemma {:induction false} LongOptsPlain(t: seq<OptionSpec>, n: string)
    requires '=' !in n
    ensures n in LongOpts(t) <==> exists i :: 0 <= i < |t| && t[i].name == n && t[i].arg == ""
  {
    if |t| > 0 {
      LongOptsPlain(t[1..], n);
      assert LongOpts(t) == [LongSpec(t[0])] + LongOpts(t[1..]);
      if t[0].arg != "" {
        assert LongSpec(t[0])[|t[0].name|] == '=';
      }
      if exists i :: 0 <= i < |t| && t[i].name == n && t[i].arg == "" {
        var i :| 0 <= i < |t| && t[i].name == n && t[i].arg == "";
        if i > 0 { assert t[1..][i - 1] == t[i]; }
      }
    }
  }

  /** `n=` is in `longopts` exactly when an entry named `n` takes an argument. */
  lemma {:induction false} LongOptsWithArg(t: seq<OptionSpec>, n: string)
    requires forall i :: 0 <= i < |t| ==> '=' !in t[i].name
    ensures n + "=" in LongOpts(t) <==> exists i :: 0 <= i < |t| && t[i].name == n && t[i].arg != ""
  {
    if |t| > 0 {
      LongOptsWithArg(t[1..], n);
      assert LongOpts(t) == [LongSpec(t[0])] + LongOpts(t[1..]);
      if t[0].arg == "" {
        assert (n + "=")[|n|] == '=';
      } else {
        assert LongSpec(t[0]) == n + "=" ==> t[0].name == (n + "=")[..|n|] == n;
        assert t[0].name == n ==> LongSpec(t[0]) == n + "=";
      }
      if exists i :: 0 <= i < |t| && t[i].name == n && t[i].arg != "" {
        var i :| 0 <= i < |t| && t[i].name == n && t[i].arg != "";
        if i > 0 { assert t[1..][i - 1] == t[i]; }
      }
    }
  }

  /** The scanner recognises a long name in the built `longopts` exactly when an
      entry declares it, and takes an argument for it exactly when that entry has
      a placeholder. */
  lemma LongOptsLookup(t: seq<OptionSpec>, n: string)
    requires LongNamesPlain(t)
    requires '=' !in n
    ensures LongHasArg(n, LongOpts(t)) == match EntryByName(t, n)
      case None => None
      case Some(i) => Some(t[i].arg != "")
  {
    LongOptsPlain(t, n);
    LongOptsWithArg(t, n);
    match EntryByName(t, n)
    case None =>
      assert forall i :: 0 <= i < |t| ==> t[i].name in NameSet(t);
    case Some(i) =>
      assert forall j :: 0 <= j < |t| && t[j].name == n ==> j == i;
  }
}

=== FILE: results.dfy ===
/** Failure-carrying datatypes used in place of Python's `None` and exceptions. */
module Results {

  /** A value that may be missing, like a Python `None`-or-value. */
  datatype Option<+T> = None | Some(value: T)

  /** Either a computed value or the exception the computation raises. */
  datatype Result<+T, +E> = Success(value: T) | Failure(error: E)
}

=== FILE: text.dfy ===
/** The few `str` operations the parser and the usage formatter rely on. */
module Text {
  import opened Results

  /** `s.startswith(prefix)` */
  predicate StartsWith(s: string, prefix: string) {
    |prefix| <= |s| && s[..|prefix|] == prefix
  }

  /** `rest` is what remains of `s` after dropping some leading elements. */
  predicate IsSuffix<T(==)>(rest: seq<T>, s: seq<T>) {
    |rest| <= |s| && s[|s| - |rest|..] == rest
  }

  lemma SuffixTransitive<T>(a: seq<T>, b: seq<T>, c: seq<T>)
    requires IsSuffix(a, b) && IsSuffix(b, c)
    ensures IsSuffix(a, c)
  {
    assert forall k :: 0 <= k < |a| ==> a[k] == b[|b| - |a| + k] == c[|c| - |a| + k];
  }

  lemma ConcatAssoc<T>(a: seq<T>, b: seq<T>, c: seq<T>)
    ensures a + (b + c) == (a + b) + c
  {
  }

  lemma ConcatAssoc4<T>(a: seq<T>, b: seq<T>, c: seq<T>, d: seq<T>)
    ensures a + ((b + c) + d) == ((a + b) + c) + d
  {
  }

  lemma ConsAppend<T>(a: seq<T>, b: seq<T>)
    requires |a| > 0
    ensures (a + b)[0] == a[0] && (a + b)[1..] == a[1..] + b
  {
  }

  lemma SplitAt<T>(t: seq<T>, i: nat)
    requires i < |t|
    ensures t == t[..i] + ([t[i]] + t[i + 1..])
  {
  }

  /** A run of `n` blanks. */
  function Spaces(n: nat): (r: string)
    ensures |r| == n
    ensures forall k :: 0 <= k < n ==> r[k] == ' '
  {
    if n == 0 then "" else " " + Spaces(n - 1)
  }

  /** Two runs of blanks make one. */
  lemma SpacesAdd(a: nat, b: nat)
    ensures Spaces(a) + Spaces(b) == Spaces(a + b)
  {
  }

  /** `'{:width}'.format(s)`: a string is left-aligned and filled with blanks up to
      `width`; a longer string is kept whole. */
  function LeftJustify(s: string, width: nat): (r: string)
    ensures |r| == if |s| < width then width else |s|
    ensures r[..|s|] == s
    ensures forall k :: |s| <= k < |r| ==> r[k] == ' '
  {
    if |s| < width then s + Spaces(width - |s|) else s
  }

  /** `s.index(c)`, with the `ValueError` for a missing character as `None`. */
  function IndexOf(s: string, c: char): (r: Option<nat>)
    ensures r.None? <==> c !in s
    ensures r.Some? ==> r.value < |s| && s[r.value] == c && c !in s[..r.value]
  {
    if |s| == 0 then None
    else if s[0] == c then Some(0)
    else match IndexOf(s[1..], c)
      case None => None
      case Some(i) =>
        assert s[..i + 1] == [s[0]] + s[1..][..i];
        Some(i + 1)
  }
}

=== FILE: usage.dfy ===
/** The usage text of a command: the synopsis, the description, a table of the
    declared options with aligned help texts, and extra text. */
module Usage {
  import opened Text
  import opened OptionTable

  /** The width the constructor computes for an entry's option column before it
      renders the column: the name and its two dashes, four more for `-x, `, and
      the placeholder with its separator once in the short form and once in the
      long form. */
  function PredictedWidth(e: OptionSpec): nat {
    |e.name| + 2
    + (if e.short != "" then 4 else 0)
    + (if e.short != "" && e.arg != "" then |e.arg| + 1 else 0)
    + (if e.arg != "" then |e.arg| + 1 else 0)
  }

  /** The running maximum over the remaining entries, starting from `p`. */
  function PaddingFrom(t: seq<OptionSpec>, p: nat): (r: nat)
    ensures p <= r
    ensures forall i :: 0 <= i < |t| ==> PredictedWidth(t[i]) <= r
    ensures r == p || exists i :: 0 <= i < |t| && r == PredictedWidth(t[i])
  {
    if |t| == 0 then p
    else PaddingFrom(t[1..], if PredictedWidth(t[0]) > p then PredictedWidth(t[0]) else p)
  }

  /** The padding of the option table: the largest predicted width, or 0 for an
      empty table. */
  function Padding(t: seq<OptionSpec>): (r: nat)
    ensures forall i :: 0 <= i < |t| ==> PredictedWidth(t[i]) <= r
    ensures |t| == 0 ==> r == 0
    ensures |t| > 0 ==> exists i :: 0 <= i < |t| && r == PredictedWidth(t[i])
  {
    PaddingFrom(t, 0)
  }

  /** The long part of the option column: `name=<arg>` or `name`. */
  function LongPart(e: OptionSpec): string {
    if e.arg != "" then e.name + "=" + e.arg else e.name
  }

  /** The short part of the option column: `x <arg>` or `x`. */
  function ShortPart(e: OptionSpec): string {
    if e.arg != "" then e.short + " " + e.arg else e.short
  }

  /** The option column of an entry. For a short form of at most one letter it
      is exactly as wide as the constructor predicts, and it always ends with the
      long spelling. */
  function Column(e: OptionSpec): (r: string)
    ensures |e.short| <= 1 ==> |r| == PredictedWidth(e)
    ensures IsSuffix("--" + LongPart(e), r)
    ensures e.short != "" ==> StartsWith(r, "-" + e.short)
  {
    if e.short != "" then "-" + ShortPart(e) + ", --" + LongPart(e) else "--" + LongPart(e)
  }

  /** One line of the option table: the column padded to `pad`, two blanks, the
      help text and a newline. A column wider than `pad` is kept whole. */
  function OptionLine(e: OptionSpec, pad: nat): (r: string)
    ensures StartsWith(r, Column(e))
    ensures |r| == (if |Column(e)| < pad then pad else |Column(e)|) + 2 + |e.help| + 1
    ensures IsSuffix("  " + e.help + "\n", r)
  {
    var just := LeftJustify(Column(e), pad);
    assert just + "  " + e.help + "\n" == just + ("  " + e.help + "\n");
    just + "  " + e.help + "\n"
  }

  /** The option table, one line per entry in declaration order: empty exactly
      for an empty table, and ending with a newline otherwise. */
  function OptionLines(t: seq<OptionSpec>, pad: nat): (r: string)
    ensures r == "" <==> |t| == 0
    ensures |t| > 0 ==> r[|r| - 1] == '\n'
  {
    if |t| == 0 then "" else OptionLine(t[0], pad) + OptionLines(t[1..], pad)
  }

  /** The description section: empty, or a blank line and the description. */
  function DescriptionPart(description: string): string {
    if description != "" then "\n\n" + description else ""
  }

  /** The options section: empty for an empty table, otherwise a blank line, the
      `Options:` header and the table. */
  function OptionsPart(t: seq<OptionSpec>): string {
    if |t| > 0 then "\n\nOptions:\n" + OptionLines(t, Padding(t)) else ""
  }

  /** The extra section: empty, or a newline and the extra text. */
  function ExtraPart(extra: string): string {
    if extra != "" then "\n" + extra else ""
  }

  /** The complete usage text. */
  function UsageText(usagestr: string, description: string, t: seq<OptionSpec>, extra: string): (r: string)
    ensures StartsWith(r, usagestr)
    ensures |r| == |usagestr| + |DescriptionPart(description)| + |OptionsPart(t)| + |ExtraPart(extra)|
    ensures description == "" && |t| == 0 && extra == "" ==> r == usagestr
    ensures |t| == 0 ==> r == usagestr + DescriptionPart(description) + ExtraPart(extra)
    ensures |t| > 0 ==> r[|usagestr| + |DescriptionPart(description)|..]
                        == "\n\nOptions:\n" + OptionLines(t, Padding(t)) + ExtraPart(extra)
    ensures r[..|usagestr| + |DescriptionPart(description)|] == usagestr + DescriptionPart(description)
  {
    var head, opts := usagestr + DescriptionPart(description), OptionsPart(t);
    var tail := opts + ExtraPart(extra);
    assert head + opts + ExtraPart(extra) == head + tail;
    assert (head + tail)[..|head|] == head && (head + tail)[|head|..] == tail;
    assert (head + tail)[..|usagestr|] == head[..|usagestr|] == usagestr;
    assert |t| == 0 ==> opts == "" && tail == ExtraPart(extra);
    assert |t| > 0 ==> opts == "\n\nOptions:\n" + OptionLines(t, Padding(t));
    head + tail
  }

  /** The option table of two tables one after the other is their two option
      tables one after the other. */
  lemma {:induction false} OptionLinesAppend(a: seq<OptionSpec>, b: seq<OptionSpec>, pad: nat)
    ensures OptionLines(a + b, pad) == OptionLines(a, pad) + OptionLines(b, pad)
  {
    if |a| == 0 {
      assert a + b == b;
    } else {
      ConsAppend(a, b);
      OptionLinesAppend(a[1..], b, pad);
      ConcatAssoc(OptionLine(a[0], pad), OptionLines(a[1..], pad), OptionLines(b, pad));
    }
  }

  /** The option table around its `i`-th line: the lines before it, the line,
      and the lines after it. */
  lemma OptionLinesSplit(t: seq<OptionSpec>, pad: nat, i: nat)
    requires i < |t|
    ensures OptionLines(t, pad) == OptionLines(t[..i], pad) + OptionLine(t[i], pad) + OptionLines(t[i + 1..], pad)
  {
    SplitAt(t, i);
    OptionLinesAppend(t[..i], [t[i]] + t[i + 1..], pad);
    ConsAppend([t[i]], t[i + 1..]);
    assert OptionLines([t[i]] + t[i + 1..], pad) == OptionLine(t[i], pad) + OptionLines(t[i + 1..], pad);
    ConcatAssoc(OptionLines(t[..i], pad), OptionLine(t[i], pad), OptionLines(t[i + 1..], pad));
  }

  /** The usage text lists every declared option, in declaration order, after
      the synopsis, the description and the `Options:` header, and before the
      extra text. */
  lemma UsageListsOption(usagestr: string, description: string, t: seq<OptionSpec>, extra: string, i: nat)
    requires i < |t|
    ensures var pad := Padding(t);
      UsageText(usagestr, description, t, extra)[|usagestr| + |DescriptionPart(description)|..]
      == "\n\nOptions:\n" + OptionLines(t[..i], pad) + OptionLine(t[i], pad) + OptionLines(t[i + 1..], pad)
         + ExtraPart(extra)
  {
    var pad := Padding(t);
    OptionLinesSplit(t, pad, i);
    var a, b, c := OptionLines(t[..i], pad), OptionLine(t[i], pad), OptionLines(t[i + 1..], pad);
    ConcatAssoc4("\n\nOptions:\n", a, b, c);
  }

  // ---------------------------------------------------------------------------
  // Alignment.

  /** Each column has one of the four documented shapes. */
  lemma ColumnShapes(e: OptionSpec)
    ensures e.short != "" && e.arg != "" ==>
      Column(e) == "-" + e.short + " " + e.arg + ", --" + e.name + "=" + e.arg
    ensures e.short != "" && e.arg == "" ==> Column(e) == "-" + e.short + ", --" + e.name
    ensures e.short == "" && e.arg != "" ==> Column(e) == "--" + e.name + "=" + e.arg
    ensures e.short == "" && e.arg == "" ==> Column(e) == "--" + e.name
  {
  }

  /** The padding is the width of the widest rendered column. */
  lemma PaddingIsWidestColumn(t: seq<OptionSpec>)
    requires forall i :: 0 <= i < |t| ==> |t[i].short| <= 1
    ensures forall i :: 0 <= i < |t| ==> |Column(t[i])| <= Padding(t)
    ensures |t| > 0 ==> exists i :: 0 <= i < |t| && |Column(t[i])| == Padding(t)
  {
    forall i | 0 <= i < |t| ensures |Column(t[i])| <= Padding(t) {
      assert |Column(t[i])| == PredictedWidth(t[i]);
    }
    if |t| > 0 {
      var i :| 0 <= i < |t| && Padding(t) == PredictedWidth(t[i]);
      assert |Column(t[i])| == PredictedWidth(t[i]);
    }
  }

  /** Two tables that differ at most in their help texts have the same padding:
      help text never moves the columns. */
  lemma PaddingIgnoresHelp(t: seq<OptionSpec>, u: seq<OptionSpec>)
    requires |t| == |u|
    requires forall i :: 0 <= i < |t| ==>
      t[i].name == u[i].name && t[i].short == u[i].short && t[i].arg == u[i].arg
    ensures Padding(t) == Padding(u)
  {
    PaddingFromIgnoresHelp(t, u, 0);
  }

  lemma {:induction false} PaddingFromIgnoresHelp(t: seq<OptionSpec>, u: seq<OptionSpec>, p: nat)
    requires |t| == |u|
    requires forall i :: 0 <= i < |t| ==>
      t[i].name == u[i].name && t[i].short == u[i].short && t[i].arg == u[i].arg
    ensures PaddingFrom(t, p) == PaddingFrom(u, p)
  {
    if |t| > 0 {
      assert PredictedWidth(t[0]) == PredictedWidth(u[0]);
      var q := if PredictedWidth(t[0]) > p then PredictedWidth(t[0]) else p;
      PaddingFromIgnoresHelp(t[1..], u[1..], q);
    }
  }

  /** A column justified to `pad`, two blanks, a help text and a newline: the
      column comes first, blanks follow up to two past `pad`, then the help. */
  lemma LineLayout(col: string, pad: nat, help: string)
    requires |col| <= pad
    ensures var line := LeftJustify(col, pad) + "  " + help + "\n";
      && |line| == pad + 2 + |help| + 1
      && line[..|col|] == col
      && (forall k :: |col| <= k < pad + 2 ==> line[k] == ' ')
      && line[pad + 2..] == help + "\n"
  {
    var just := LeftJustify(col, pad);
    var line := just + "  " + help + "\n";
    assert line == just + ("  " + help + "\n");
    assert line[..|col|] == just[..|col|];
  }

  /** A line whose column fits the padding is the column, blanks up to two past
      the padding, the help text and a newline. */
  lemma OptionLineShape(e: OptionSpec, pad: nat)
    requires |Column(e)| <= pad
    ensures OptionLine(e, pad) == Column(e) + Spaces(pad + 2 - |Column(e)|) + (e.help + "\n")
  {
    var col := Column(e);
    var k := pad - |col|;
    assert "  " == Spaces(2);
    SpacesAdd(k, 2);
    ConcatAssoc(col, Spaces(k), Spaces(2));
    ConcatAssoc(col + Spaces(k + 2), e.help, "\n");
  }

  /** Every line of the option table puts its column at the start, blanks up to
      two past the padding, and its help text right after: the help texts of all
      lines start in the same column. */
  lemma OptionLineAligned(t: seq<OptionSpec>, i: nat)
    requires i < |t|
    requires forall k :: 0 <= k < |t| ==> |t[k].short| <= 1
    ensures var line, pad, col := OptionLine(t[i], Padding(t)), Padding(t), Column(t[i]);
      && |line| == pad + 2 + |t[i].help| + 1
      && line[..|col|] == col
      && (forall k :: |col| <= k < pad + 2 ==> line[k] == ' ')
      && line[pad + 2..] == t[i].help + "\n"
  {
    var pad, col := Padding(t), Column(t[i]);
    assert |col| == PredictedWidth(t[i]) <= pad;
    LineLayout(col, pad, t[i].help);
    assert OptionLine(t[i], pad) == LeftJustify(col, pad) + "  " + t[i].help + "\n";
  }
}
